=== FILE: README.md ===
# Long multiplication, division input and flash cards: a Dafny model

A Unity teaching app for arithmetic has three pieces of plain logic behind its
buttons, and this project models and proves each of them.

- **The long-multiplication stepper** (`LongMath`).
  - The board has a top and a bottom operand row, a carry row, one answer row
    per bottom digit, and a final answer row. Every cell is a text.
  - The first press of Step reads the operands. `BuildNumber` folds the first
    character of every cell from the first to the last digit cell.
  - Each later press runs one phase:
    `Highlight -> Multiply -> WriteOnes -> [WriteCarry] -> Advance`. One round
    writes one digit of a partial product, and a carry is written only when
    it is non-zero.
  - When every bottom digit has been used, one press puts "+" before the last
    partial row. Every press after that writes `top * bottom` right-aligned
    into the final row.
  - The model is a pure state machine over an immutable `Stepper` record
    (`long_math.dfy`), with its properties in `long_math_proofs.dfy`.
- **The long-division board's input check and Step counter** (`LongDivision`).
  - The first successful press reads a two-cell divisor
    (`d1 * 10 + d2`) and the in-order digits of the dividend row.
  - Cells are read with `string.IsNullOrWhiteSpace` and `int.TryParse`.
  - Until a reading succeeds the counter stays at 0. After that every press
    only increments it.
  - The board has no quotient, subtraction or bring-down logic, and the
    model adds none.
- **The arithmetic flash card** (`FlashCards`).
  - It holds a table number and a step that cycles through 1..maxValue.
  - Sequential cards show `table op step`. Subtraction skips steps that would
    give a negative answer, and division skips steps that do not divide the
    table number. After more than maxValue + 5 tries a fallback card
    "a ? 1" is shown.
  - Random cards draw the operation and both numbers. The values
    `Random.Range` returned are parameters (`Draws`), and `DrawsInRange`
    states the ranges the source asks `Random.Range` for. For integers
    `Random.Range(lo, hi)` returns a value in [lo, hi); it returns lo when
    hi == lo; and when hi < lo it swaps the bounds and returns a value in
    (hi, lo].
  - A click reveals the answer. The next click moves on.
  - Answers are 32-bit `int` arithmetic. Every card carries the answer C#
    computes for it (`WrapHonest`), which is the true answer while the
    operands stay within 46340 (`HonestWithin32`). Beyond that a product
    wraps: `RandomProductWraps`, `SequentialProductWraps` and
    `SubtractWraps` give concrete cards whose answer is wrong.

Three shared modules hold the helpers:

- `Digits` (`digits.dfy`): decimal digits, `ToString`, the digit fold and
  division facts.
- `Scan` (`scan.dfy`): first and last index search.
- `CsInt` (`cs_int.dfy`): C#'s 32-bit `int` range, its wrap-around, and
  its truncating `/` and `%`.

C# semantics are written out where they matter:

- truncating `/` and `%` (`CsDiv`, `CsRem`);
- `c - '0'` on any character (`Offset`);
- `int.TryParse`, which skips only U+0009..U+000D and U+0020, takes an
  optional sign and ASCII digits, and requires the 32-bit range;
- `string.IsNullOrWhiteSpace`, which uses the full Unicode white-space set;
- unchecked 32-bit `int` arithmetic (`Wrap32`) for the division board's
  divisor and counter, for the product the multiplication board writes
  into its final row, and for the flash card's answers, its dividend
  `y * q`, its loop bound `maxValue + 5` and its `Random.Range` bounds
  `maxValue + 1` and `x + 1`.

How the stepper behaves:

- The partial rows drop the final carry of each row. The carry is written
  to the carry row, then `Advance` clears it, so `5 x 5` leaves "5" in its
  partial row. `PartialRowDropsFinalCarry` states this exactly.
- The final row does not depend on the partial rows: it is computed from
  `top * bottom` directly, in 32-bit arithmetic. A product above 2^31 - 1
  wraps: 46341 x 46341 wraps negative and leaves the final row blank
  (`ProductOverflowBlanksRow`), and 999999999 x 9 shows 410065399
  (`ProductOverflowWrapsDigits`).
- The stepper never sets its `loaded` flag back to false after a successful
  load, so later presses never re-read the operands.

## Model

| member | source | states |
|---|---|---|
| Scan.FirstFrom | Assets/Scripts/LongMath.cs:234-242 | the index found is the least index from the start whose cell satisfies the test, or -1 exactly when no cell does |
| Scan.LastBefore | Assets/Scripts/LongMath.cs:234-242 | the index found is the greatest index below the bound whose cell satisfies the test, or -1 exactly when no cell does |
| LongMath.BuildNumber | Assets/Scripts/LongMath.cs:229-257 | start is -1 (value -1, length 0) exactly when no cell starts with a digit; otherwise the span starts and ends on digit cells, lies inside the row, every cell outside it does not start with a digit, and every cell inside it holds text |
| LongMathProofs.BuildNumberReadsDigits | Assets/Scripts/LongMath.cs:229-262 | when every cell of the span starts with a digit, the value lies in [0, 10^length) and its digit k (from the right) is the leading digit of the k-th span cell from the right |
| LongMathProofs.GetDigitOfText | Assets/Scripts/LongMath.cs:251-262 | for a digit text, the place-value digit k of the folded value is the k-th character from the right |
| LongMath.GetDigit | Assets/Scripts/LongMath.cs:259-262 | the digit taken from any place lies in 0..9 |
| LongMathProofs.GetDigitPlaceValue | Assets/Scripts/LongMath.cs:259-262 | n mod 10^(i+1) = n mod 10^i + GetDigit(n, i) * 10^i, so GetDigit is the i-th decimal digit |
| LongMath.ResetState | Assets/Scripts/LongMath.cs:116-131 | cursors, carry and product are zeroed, both flags cleared, the phase set to Highlight, the carry row filled with "C" and the answer rows blanked; operands, spans, ones column and message are kept |
| LongMath.ClearCarryRow | Assets/Scripts/LongMath.cs:341-349 | every carry cell becomes "C", the row keeps its length, and no other row changes |
| LongMath.ClearAnswerRows | Assets/Scripts/LongMath.cs:351-366 | every cell of every answer row becomes blank, all row lengths are kept, and no other row changes |
| LongMathProofs.ClearsIdempotent | Assets/Scripts/LongMath.cs:341-366 | clearing the carry row and the answer rows a second time changes nothing |
| LongMath.WriteAnswerDigit | Assets/Scripts/LongMath.cs:292-297 | exactly the addressed answer cell becomes the digit's text; every other cell of every row is unchanged |
| LongMath.MarkBeforeFirstFilled | Assets/Scripts/LongMath.cs:265-289 | the row keeps its length; where the mark lands is `MarkBeforeFirstFilledPlacement` |
| LongMath.ShowMultiplySignForBottomRow | Assets/Scripts/LongMath.cs:265-276 | only the bottom operand row can change, and it keeps its length |
| LongMath.ShowPlusSignForAddition | Assets/Scripts/LongMath.cs:278-289 | only the last answer row can change, and it keeps its length |
| LongMathProofs.MarkBeforeFirstFilledPlacement | Assets/Scripts/LongMath.cs:278-289 | the mark lands in the cell just left of the first non-empty cell at index 1 or more, and every other cell is unchanged (the whole row when there is no such cell) |
| LongMathProofs.TimesSignOverwritesColumnZero | Assets/Scripts/LongMath.cs:265-276 | on the first Highlight, with cell 1 of the bottom row filled, "×" is written into cell 0 of the bottom row |
| LongMath.Start | Assets/Scripts/LongMath.cs:63-69 | a fresh stepper is unloaded and in Highlight |
| LongMath.LoadNumbers | Assets/Scripts/LongMath.cs:81-113 | success leaves a loaded stepper in Highlight with both cursors at 0; the loaded flag is set exactly on success, or kept when the failure is a missing operand |
| LongMathProofs.LoadFailsOnMissingOperand | Assets/Scripts/LongMath.cs:83-90 | with an operand row holding no digit cell, loading fails with "fill in both numbers" before the reset: board, phase, cursors, carry, product, flags and ones column are untouched |
| LongMathProofs.LoadResetsState | Assets/Scripts/LongMath.cs:98-131 | a successful load zeroes cursors, carry and product, clears both flags then sets loaded, enters Highlight, takes both operand values and their spans, sets the ones column to the last cell of answer row 0, fills the carry row with "C", blanks every answer cell, and keeps the operand and final rows |
| LongMathProofs.LoadIdempotent | Assets/Scripts/LongMath.cs:81-131 | loading a second time from the state a load left behind gives the same result and the same state |
| LongMathProofs.LoadEstablishesRowInvariant | Assets/Scripts/LongMath.cs:81-131 | a successful load on a board that fits yields a valid stepper satisfying the partial-row invariant |
| LongMath.RunStep | Assets/Scripts/LongMath.cs:134-217 | a step keeps the stepper invariant (cursors in range, ones column, answer-row cursor = min(bottom index, rows - 1), carry <= 8, product <= 89) and never changes the operands, their spans, the top row or any row's size |
| LongMath.FinishStep | Assets/Scripts/LongMath.cs:139-152 | the finishing press keeps the stepper invariant and the row shapes |
| LongMath.HighlightStep | Assets/Scripts/LongMath.cs:164-174 | Highlight keeps the stepper invariant and the row shapes |
| LongMathProofs.HighlightWrites | Assets/Scripts/LongMath.cs:164-174 | Highlight moves to Multiply and shows the equation; on the first round only, it writes "×" into the bottom-row cell left of the first filled cell at index 1 or more (`LeftOfFirstFilled`); nothing else changes |
| LongMath.MultiplyStep | Assets/Scripts/LongMath.cs:176-185 | Multiply keeps the stepper invariant (product <= 89) and the row shapes |
| LongMath.WriteOnesStep | Assets/Scripts/LongMath.cs:187-191 | WriteOnes keeps the stepper invariant (carry <= 8) and the row shapes |
| LongMath.WriteCarryStep | Assets/Scripts/LongMath.cs:193-200 | WriteCarry keeps the stepper invariant and the row shapes |
| LongMath.AdvanceStep | Assets/Scripts/LongMath.cs:202-215 | Advance keeps the stepper invariant and the row shapes, including the clamped answer-row cursor |
| LongMath.StepThrough | Assets/Scripts/LongMath.cs:72-78 | a press leaves either a valid loaded stepper or an unloaded one whose board can still be loaded |
| LongMathProofs.PhaseOrder | Assets/Scripts/LongMath.cs:162-216 | Highlight -> Multiply -> WriteOnes; WriteOnes goes to WriteCarry iff the new carry is positive and to Advance iff it is zero; WriteCarry -> Advance -> Highlight; only Advance moves the cursors; no phase touches the "+" flag |
| LongMathProofs.MultiplyFormsProduct | Assets/Scripts/LongMath.cs:154-185 | the product is topDigit * bottomDigit + carry from the digits under the cursors, at most 89, and the board and carry are unchanged |
| LongMathProofs.WriteOnesWritesColumn | Assets/Scripts/LongMath.cs:159-191 | product mod 10 is written at column onesColumn - topIndex - answerRow of the current answer row, which is in range; no other cell changes; the carry becomes product div 10 <= 8 |
| LongMathProofs.WriteCarryGuarded | Assets/Scripts/LongMath.cs:193-200 | the carry text goes into carry cell topColumn - 1 exactly when that cell exists, and the board is unchanged otherwise; the next phase is Advance |
| LongMathProofs.AdvanceMovesCursors | Assets/Scripts/LongMath.cs:202-215 | inside a row only topIndex moves (by one); at the row end topIndex returns to 0, bottomIndex increments, answerRow becomes min(answerRow + 1, rows - 1), the carry is 0 and the carry row is all "C" |
| LongMathProofs.MultiplyKeepsRowInvariant | Assets/Scripts/LongMath.cs:176-185 | Multiply turns "written + carry * 10^i = (top mod 10^i) * bottomDigit" into the pending form with top mod 10^(i+1) |
| LongMathProofs.OnesDigitExtendsReading | Assets/Scripts/LongMath.cs:187-191 | writing product mod 10 at the next column and keeping product div 10 preserves written + carried value |
| LongMathProofs.WriteOnesKeepsRowInvariant | Assets/Scripts/LongMath.cs:187-191 | WriteOnes keeps the partial-row invariant, now over i + 1 written digits |
| LongMathProofs.AnswersUntouchedKeepRowInvariant | Assets/Scripts/LongMath.cs:164-200 | Highlight and WriteCarry keep the partial-row invariant |
| LongMathProofs.AdvanceKeepsRowInvariant | Assets/Scripts/LongMath.cs:202-215 | Advance keeps the partial-row invariant, starting a new row from nothing written and no carry |
| LongMathProofs.RunStepKeepsRowInvariant | Assets/Scripts/LongMath.cs:134-217 | every step keeps the invariant: digits written so far + carry * 10^i = (top mod 10^i) * bottomDigit |
| LongMathProofs.PartialRowDropsFinalCarry | Assets/Scripts/LongMath.cs:202-215 | at the end of a row its digits read top * bottomDigit - carry * 10^topLength, and Advance then zeroes the carry without writing it into the row |
| LongMathProofs.PlusShownOnce | Assets/Scripts/LongMath.cs:139-147 | the first finishing press marks "+" before the last answer row's first filled cell at index 1 or more, sets the flag and the message, and changes nothing else |
| LongMathProofs.FinalStepIdempotent | Assets/Scripts/LongMath.cs:149-151 | after the "+" press each press writes the final row of the 32-bit product top * bottom and says complete; pressing again changes nothing |
| LongMath.FinalRow | Assets/Scripts/LongMath.cs:302-307 | the row written has exactly the final row's width |
| LongMath.WriteFinalAnswer | Assets/Scripts/LongMath.cs:299-308 | only the final row changes, and it keeps its width |
| LongMathProofs.FinalRowNonPositive | Assets/Scripts/LongMath.cs:299-308 | a result of zero or below, such as a product that wrapped negative, leaves every final cell blank |
| LongMathProofs.FinalRowDigits | Assets/Scripts/LongMath.cs:299-308 | cell k from the right of the final row is the digit k of the product while product div 10^k > 0, and blank otherwise |
| LongMathProofs.FinalCellValue | Assets/Scripts/LongMath.cs:299-308 | each final cell's leading digit is the product's digit in that place, and the cell is blank iff every digit from that place leftward is zero |
| LongMathProofs.FinalRowReadsResult | Assets/Scripts/LongMath.cs:299-308 | the rightmost n cells of the final row read product mod 10^n |
| LongMathProofs.FinalRowRoundTrip | Assets/Scripts/LongMath.cs:299-308 | when the product fits, the final row reads back as the product and its leading blanks are exactly the places above its highest digit |
| LongMathProofs.ProductReads | Assets/Scripts/LongMath.cs:299-308 | the final row has the row's width and reads product mod 10^width, which is the product when it fits |
| LongMathProofs.WrappedProductReads | Assets/Scripts/LongMath.cs:299-308 | the final row of the 32-bit product of an exact product n: blank when it wrapped to zero or below, otherwise that value mod 10^width; n mod 10^width while n fits 32 bits, and n itself when it also fits the row |
| LongMathProofs.ProductOverflowBlanksRow | Assets/Scripts/LongMath.cs:299-308 | 46341 * 46341 wraps to -2147479015 in 32 bits, and its final row is all blank |
| LongMathProofs.ProductOverflowWrapsDigits | Assets/Scripts/LongMath.cs:299-308 | 999999999 * 9 wraps to 410065399, and a nine-cell final row reads 410065399 |
| LongMathProofs.RunStepProgress | Assets/Scripts/LongMath.cs:134-217 | until the final row is written, every step strictly decreases a bound on the presses left |
| LongMathProofs.RunToCompletion | Assets/Scripts/LongMath.cs:134-217 | pressing until nothing changes ends valid, finished, with "+" shown and the final row equal to the row of the 32-bit product top * bottom |
| LongMathProofs.CompletionReadsProduct | Assets/Scripts/LongMath.cs:134-308 | from any valid state the finished final row is blank when the 32-bit product wrapped to zero or below, and otherwise reads that product mod 10^width; while top * bottom fits 32 bits this is (top * bottom) mod 10^width, and top * bottom itself when it fits the row |
| LongMathProofs.FirstPressLoads | Assets/Scripts/LongMath.cs:72-113 | on a fresh board with both operands present, the first press loads a valid stepper holding the two operand values and their spans |
| LongMathProofs.MultiplicationEndToEnd | Assets/Scripts/LongMath.cs:72-308 | for digit operand rows, the operands read as values below 10^length and pressing to completion leaves a final row reading their product (mod 10^width) whenever the product fits a 32-bit int |
| CsInt.Wrap32 | Assets/Scripts/LongDivision.cs:89 | the result is a 32-bit int, equal to the exact value when that fits, and 2^32 below it when the exact value lies in the next 2^32 above the range |
| CsInt.WrapCongruent | Assets/Scripts/LongDivision.cs:89 | the wrapped value differs from the exact one by whole turns of 2^32 |
| CsInt.WrapUnique | Assets/Scripts/LongDivision.cs:89 | the wrapped value is the only int-range value congruent to the exact one mod 2^32 |
| LongDivision.ParseInt32 | Assets/Scripts/LongDivision.cs:133 | a parse that succeeds yields a 32-bit int; `ParseIntText` is the round trip from the decimal text |
| LongDivision.ParseSpan | Assets/Scripts/LongDivision.cs:133 | a parse that succeeds yields a 32-bit int |
| LongDivision.SpanIsText | Assets/Scripts/LongDivision.cs:133 | the parser's index-based digit check and value agree with the digit text fold on the same slice |
| LongDivision.TryReadDigit | Assets/Scripts/LongDivision.cs:122-140 | the cell reads (true, v) exactly when int.TryParse accepts it with value v, and (false, 0) otherwise |
| LongDivision.WhiteSpaceDoesNotParse | Assets/Scripts/LongDivision.cs:130-133 | a blank or all-white-space text is rejected by the parse as well, so the white-space test never changes the outcome |
| LongDivision.ParseIntText | Assets/Scripts/LongDivision.cs:133 | the decimal text of any 32-bit int parses back to that int |
| LongDivision.ReadsDigitTile | Assets/Scripts/LongDivision.cs:122-140 | a one-digit tile reads as (true, its digit) |
| LongDivision.ReadAll | Assets/Scripts/LongDivision.cs:100-104 | one reading per cell, in row order |
| LongDivision.ParsedDigits | Assets/Scripts/LongDivision.cs:99-104 | at most one digit is collected per cell; what is collected is `ParsedDigitsAppend`, `TileRowRoundTrip` and `BlankCellsSkipped` |
| LongDivision.ParsedDigitsAppend | Assets/Scripts/LongDivision.cs:99-104 | the digits of a row are the digits of its first part followed by those of the rest |
| LongDivision.ParsedDigitsEmpty | Assets/Scripts/LongDivision.cs:99-111 | no digit is collected exactly when no cell reads |
| LongDivision.TileRowRoundTrip | Assets/Scripts/LongDivision.cs:99-113 | a row of digit tiles yields exactly its digits, in order |
| LongDivision.TileReadsDigit | Assets/Scripts/LongDivision.cs:99-104 | one digit tile yields the one-digit list |
| LongDivision.BlankCellsSkipped | Assets/Scripts/LongDivision.cs:99-104 | an empty cell between tiles is skipped, closing the gap |
| LongDivision.Start | Assets/Scripts/LongDivision.cs:31-43 | the counter starts at 0 with the bar hidden and the opening instruction shown |
| LongDivision.LoadDivisor | Assets/Scripts/LongDivision.cs:73-89 | succeeds exactly when the row has two cells that both read, storing d1 * 10 + d2 in 32-bit arithmetic; a failure changes only the instruction |
| LongDivision.LoadDividend | Assets/Scripts/LongDivision.cs:91-113 | succeeds exactly when some cell reads, storing the non-empty in-order list of read values; a failure keeps the digits and divisor |
| LongDivision.LoadNumbers | Assets/Scripts/LongDivision.cs:71-117 | succeeds exactly when both rows are readable, then holding the divisor value and the parsed dividend digits; a failure keeps the digits; the counter and bar are untouched |
| LongDivision.LoadCheckOrder | Assets/Scripts/LongDivision.cs:71-111 | the reported failure is the first in source order: missing divisor row, unreadable divisor digit, missing dividend row, no dividend digit; the last two keep the divisor just read |
| LongDivision.ZeroDivisorAccepted | Assets/Scripts/LongDivision.cs:81-89 | divisor cells "0" "0" load as divisor 0: nothing checks that it is positive |
| LongDivision.DivisorOfTiles | Assets/Scripts/LongDivision.cs:81-89 | two digit tiles d1, d2 make the divisor row readable with value 10 * d1 + d2 |
| LongDivision.Step | Assets/Scripts/LongDivision.cs:48-66 | at 0 the counter becomes 1 exactly when both rows read, showing the bar, the step instruction and the parsed digits, and otherwise stays 0; above 0 a press only increments it (32-bit) |
| LongDivision.FailedLoadsKeepZero | Assets/Scripts/LongDivision.cs:48-66 | while every board pressed on is unreadable, the counter stays 0 and no digits or bar appear |
| LongDivision.PressesCount | Assets/Scripts/LongDivision.cs:48-66 | once loaded, n presses add n to the counter and change nothing else, whatever the board shows |
| LongDivision.CounterWraps | Assets/Scripts/LongDivision.cs:65 | the press after 2^31 - 1 wraps the counter to -2^31 |
| CsInt.CsDivRem | Assets/Scripts/MathFlashCard.cs:185-191 | C#'s / and % agree with the mathematical ones on non-negative operands, and a zero remainder makes the quotient exact |
| FlashCards.AdvanceStep | Assets/Scripts/MathFlashCard.cs:263-268 | the next step is step + 1, or 1 after maxValue; it never passes maxValue unless it is 1 |
| FlashCards.AdvancesCycle | Assets/Scripts/MathFlashCard.cs:263-268 | n advances from a step in 1..maxValue land on ((step - 1 + n) mod maxValue) + 1 |
| FlashCards.CycleReturns | Assets/Scripts/MathFlashCard.cs:263-268 | maxValue advances bring the step back to where it was |
| FlashCards.CycleVisits | Assets/Scripts/MathFlashCard.cs:263-268 | every step 1..maxValue comes up within maxValue - 1 advances |
| FlashCards.Fallback | Assets/Scripts/MathFlashCard.cs:146-154 | a becomes the table number and b 1; the card is "table ? 1" with answer table, hidden; step, table, size and mode are kept |
| FlashCards.HonestWithin32 | Assets/Scripts/MathFlashCard.cs:162-191 | where no sum, difference, product or dividend leaves the int range, the 32-bit answer (`WrapHonest`) holds exactly when the true answer (`Honest`) does |
| FlashCards.Skipped | Assets/Scripts/MathFlashCard.cs:156-189 | a skipped try sets b to the step tried and moves to the next step (not in random mode), touching neither the card nor the table |
| FlashCards.Drawn | Assets/Scripts/MathFlashCard.cs:156-193 | a try that is not skipped draws "a op step" with b the step, carrying the 32-bit answer, exact for a division and non-negative for a difference |
| FlashCards.SequentialLoop | Assets/Scripts/MathFlashCard.cs:144-195 | the card drawn carries the answer C#'s 32-bit arithmetic gives for it (`WrapHonest`), exactly so for a division; it has no answer lines, is the mode's operator on (a, step) with b the step, or the fallback "table ? 1" with b = 1 and answer table; it never shows a negative difference and keeps the step in range |
| FlashCards.GenerateSequentialProblem | Assets/Scripts/MathFlashCard.cs:139-196 | a is the table number; the card carries the 32-bit answer (`WrapHonest`), hidden, uses the mode's operator or is the fallback "table ? 1" with b = 1 and answer table, never shows a negative difference, and keeps the step in range; a division is exact, and with the step in range, -46340 <= table <= 46340 and maxValue <= 46340 every card is honest |
| FlashCards.RandomModeFallsBack | Assets/Scripts/MathFlashCard.cs:144-195 | in random mode no case of the switch matches, so the sequential loop always ends on the fallback "table ? 1" with answer table; GenerateNewProblem never takes this path (it draws a random card instead), so the lemma is about the loop alone |
| FlashCards.NoTriesFallsBack | Assets/Scripts/MathFlashCard.cs:144-154 | with maxValue < -5, or maxValue >= 2147483643 where maxValue + 5 wraps negative, the first try already exceeds the limit, and every mode shows the fallback with the step unchanged |
| FlashCards.LeastFitFrom | Assets/Scripts/MathFlashCard.cs:156-193 | the reference search: the least accepted step from a given one, or 1 when none is left |
| FlashCards.LoopFindsStep | Assets/Scripts/MathFlashCard.cs:156-193 | with a table number in 1..2^31 - 1 and tries to spare before the 32-bit bound maxValue + 5, subtraction and division stop at the reference step, before the fallback can trigger |
| FlashCards.SubtractStep | Assets/Scripts/MathFlashCard.cs:166-175 | for int-range table number and size, subtraction stops at the current step when it does not exceed the table number, and otherwise wraps round to 1 |
| FlashCards.SequentialNoFallback | Assets/Scripts/MathFlashCard.cs:139-196 | with a table number in 1..2^31 - 1 and maxValue <= 2147483642 (so maxValue + 5 does not wrap), subtraction and division cards show (table, step) at the reference step; subtraction's answer is table - step >= 0 and division's satisfies answer * step = table |
| FlashCards.SubtractFallsBack | Assets/Scripts/MathFlashCard.cs:146-175 | with a table number below 1, and no difference table - step below -2^31, every subtraction step is skipped and the fallback card is shown |
| FlashCards.AddMultiplyAtStep | Assets/Scripts/MathFlashCard.cs:156-181 | when -5 <= maxValue <= 2147483642, addition and multiplication use the current step as it is, with answer the 32-bit table + step or table * step |
| FlashCards.GenerateRandomProblem | Assets/Scripts/MathFlashCard.cs:199-237 | with draws Random.Range can return, the card is hidden, never the fallback, and its answer is the 32-bit value of its operator; when -1 <= maxValue < 2^31 - 1 (`RandomSafe`) the divisor is nonzero and a difference is never negative; when -1 <= maxValue <= 46340 the card is honest; it never touches a, b or the step |
| FlashCards.RandomCardBounds | Assets/Scripts/MathFlashCard.cs:214-235 | for 1 <= maxValue < 2^31 - 1, a random difference lies in 0..maxValue - 1; a random division has divisor and quotient in 1..maxValue, exact in 32 bits, and exact outright when maxValue <= 46340 |
| FlashCards.GenerateNewProblem | Assets/Scripts/MathFlashCard.cs:121-136 | the answer is hidden and the table, size and mode are kept |
| FlashCards.RandomDivisorZero | Assets/Scripts/MathFlashCard.cs:214-233 | with maxValue = -2 the swapped ranges allow a random "0 ÷ 0" card and a random difference of -1 |
| FlashCards.RandomAtMaxSize | Assets/Scripts/MathFlashCard.cs:214-233 | with maxValue = 2^31 - 1 the bound maxValue + 1 wraps to -2^31, allowing a random "0 ÷ 0" card and a random difference of -6 |
| FlashCards.RandomProductWraps | Assets/Scripts/MathFlashCard.cs:222-227 | with maxValue = 50000 the draws 50000, 50000 give "50000 × 50000" with the answer -1794967296: 32-bit, not honest |
| FlashCards.SequentialProductWraps | Assets/Scripts/MathFlashCard.cs:177-181 | table 46341 at step 46341 in multiplication mode shows the answer -2147479015, not honest |
| FlashCards.SubtractWraps | Assets/Scripts/MathFlashCard.cs:166-175 | a table number of -2^31 in subtraction mode shows "-2147483648 − 1" with the answer 2147483647, not honest |
| FlashCards.NewProblemGood | Assets/Scripts/MathFlashCard.cs:121-136 | a new card keeps the step in range, shows no answer line and carries the 32-bit answer; a random card needs `RandomSafe` (-1 <= maxValue < 2^31 - 1) |
| FlashCards.ResetSequence | Assets/Scripts/MathFlashCard.cs:94-100 | the answer is hidden and the table, size and mode are kept |
| FlashCards.ResetStartsAtOne | Assets/Scripts/MathFlashCard.cs:94-100 | outside random mode, with a table number in 1..2^31 - 1 and 1 <= maxValue <= 2147483642, the reset lands on step 1, b = 1, hidden, with no answer line |
| FlashCards.SetOperation | Assets/Scripts/MathFlashCard.cs:73-77 | the mode becomes the chosen one, the answer is hidden, the table and size are kept |
| FlashCards.IncreaseTable | Assets/Scripts/MathFlashCard.cs:80-85 | the table number goes up by one, or stops at maxValue; it never exceeds maxValue |
| FlashCards.DecreaseTable | Assets/Scripts/MathFlashCard.cs:87-92 | the table number goes down by one, or stops at 1; it never drops below 1 |
| FlashCards.TableStaysInRange | Assets/Scripts/MathFlashCard.cs:80-92 | a table number in 1..maxValue stays there under both buttons, moving by one and stopping at the ends |
| FlashCards.OnFlashCardClicked | Assets/Scripts/MathFlashCard.cs:240-260 | each click flips showingAnswer; a click on a hidden card appends its answer line and changes nothing else |
| FlashCards.RevealThenNext | Assets/Scripts/MathFlashCard.cs:240-260 | outside random mode, two clicks on a hidden card show its answer, then draw the sequential card for the next step, whatever the old card showed |
| FlashCards.LoopIgnoresCard | Assets/Scripts/MathFlashCard.cs:139-196 | the sequential draw does not depend on the card shown before |
| FlashCards.Start | Assets/Scripts/MathFlashCard.cs:25-64 | the game starts in multiplication mode with the configured table and size and the answer hidden |
| FlashCards.StartGood | Assets/Scripts/MathFlashCard.cs:25-64 | the starting state satisfies the card invariant |
| FlashCards.PressesKeepGood | Assets/Scripts/MathFlashCard.cs:73-100 | every button (card click, mode, table up and down) keeps the invariant: step in range, answer lines matching showingAnswer, the 32-bit answer; a press that draws a random card needs `RandomSafe` |
| FlashCards.ClickKeepsGood | Assets/Scripts/MathFlashCard.cs:240-260 | a card click keeps the invariant (a random card needs `RandomSafe`) |
| FlashCards.TableButtonsKeepGood | Assets/Scripts/MathFlashCard.cs:80-92 | both table buttons keep the invariant (a random card needs `RandomSafe`) |

## Left out

- Highlights, colours, rich-text markup (`ShowColoredEquation`, `GetColoredProduct`, `Highlight`, `ClearAllHighlights`) and the exact instruction strings: the instruction is an enumeration, and the multiplication messages carry the numbers they show.
- Drag-and-drop, the board builder's layout, the camera and the board shift: these are Unity object and float code. The answer grid is taken as the precondition `RowsFit`: every answer row has one width, and topLength + rows - 1 <= that width, so the leftmost write stays in the row. Nothing in the source guarantees this. The board builder (`LMBuilder.SpawnRowsForBottomNumber`, Assets/Scripts/LMBuilder.cs:65-91) makes one 9-cell row per bottom digit, which breaks `RowsFit` once topLength + bottomLength > 10 (a 9-digit top times a 2-digit bottom writes at column -1 and throws). `answerRows` is a jagged `DigitDropSlot[][]` (Assets/Scripts/LongMath.cs:54), which Unity does not serialize, so no editor setup can fill it; its only writer is `SpawnRowsForBottomNumber`, and the call to it is commented out (Assets/Scripts/LongMath.cs:93). Unless code outside these files calls `SpawnRowsForBottomNumber` (Assets/Scripts/LMBuilder.cs:72-82), every load stops at "Answer rows not ready." (Assets/Scripts/LongMath.cs:100-104).
- Null slots and null `slotText` are modelled as empty text. The source does not treat them alike everywhere: `BuildNumber` and the sign writers read `slotText.text` without a null check (Assets/Scripts/LongMath.cs:254, :269, :283) and would throw, and `ClearCarryRow` skips a slot whose `slotText` is null, where the model writes "C".
- LongMath.BuildNumber: a blank cell between the first and last digit cells makes the source throw at `text[0]` (Assets/Scripts/LongMath.cs:254); the model excludes this board with the precondition `SpanReadable`.
- Null UI references (`instructionText`, `flashCardText`, `divisionLine`, `timesTableLabel`): the model assumes they are all set.
- `char.IsDigit` is modelled as the ASCII digits '0'..'9', not the other Unicode decimal digits. Board tiles carry only 0..9.
- LongMath.BuildNumber: the value is characterised (by `BuildNumberReadsDigits`) only when every cell of the span starts with a digit. A non-digit cell inside the span is folded as `c - '0'` exactly as in the source, but no lemma states what that gives.
- LongMath.BuildNumber: the fold `value * 10 + digit` is unbounded here; the source wraps at 32 bits for an operand above 2147483647.
- LongMath.GetDigit: `Mathf.Pow` is a float power cast to int; here it is the exact power of ten, which agrees with the source for places 0..9, where the float power is exact and fits an int.
- LongMath.RunStep: the final row's `topNumber * bottomNumber` wraps at 32 bits, as in the source (46341 x 46341 already wraps); the digit products and carries stay below 90 and never wrap.
- LongMath.RunStep: writes that the source makes without a bounds check (`WriteAnswerDigit`, `Highlight`) are preconditions (`Valid`, `Loadable`), not exceptions.
- FlashCards.SequentialLoop: the try counter `safety` is unbounded. At maxValue = 2147483642 the bound maxValue + 5 is 2^31 - 1, which the source's `safety++` can never exceed: it wraps instead, and a loop that skips every try never ends. The model returns the fallback after 2^31 tries there.
- FlashCards.SubtractFallsBack: at maxValue = 2147483642 the source never reaches the fallback (see SequentialLoop above); the lemma describes the model there. It also asks that no difference table - step fall below -2^31: at table -2^31 the source shows a wrapped card instead (`SubtractWraps`).
- FlashCards.RandomModeFallsBack: at maxValue = 2147483642 the source never reaches the fallback (see SequentialLoop above); the lemma describes the model there.
- FlashCards.AddMultiplyAtStep: no longer promised for maxValue >= 2147483643, because there `maxValue + 5` wraps negative and the source shows the fallback instead (`NoTriesFallsBack`).
- FlashCards.SequentialNoFallback: no longer promised for maxValue >= 2147483643, for the same reason; it also asks for a table number of at most 2^31 - 1, the range of the source's `int` field.
- FlashCards.ResetStartsAtOne: no longer promised for maxValue >= 2147483643, for the same reason.
- FlashCards.AdvanceStep: `currentStep++` is unbounded. The source would wrap to -2^31 at 2^31 - 1, and a step of -1 could then make `a % b` and `a / b` throw for a = -2^31; `CsRem` and `CsDiv` do not model that exception.
- FlashCards.IncreaseTable: `tableNumber++` is unbounded. At 2^31 - 1 the source wraps to -2^31, which passes the `> maxValue` test; the model clamps to maxValue.
- FlashCards.DecreaseTable: `tableNumber--` is unbounded. At -2^31 the source wraps to 2^31 - 1, which passes the `< 1` test; the model clamps to 1.
- `int.TryParse` culture details (other sign symbols, trailing NUL characters) are not modelled. The invariant culture with ASCII input is assumed.
- `Random.Range` is a parameter (`Draws`), not a generator. Its integer behaviour (`RangeResult`) is taken from Unity's documentation and is not part of this repository.
- FlashCards.GenerateRandomProblem: a nonzero divisor and a non-negative difference are promised only for -1 <= maxValue < 2^31 - 1, and the true answer only up to maxValue = 46340. Outside these ranges the source itself draws "0 ÷ 0" or wraps (`RandomDivisorZero`, `RandomAtMaxSize`, `RandomProductWraps`).
- FlashCards.PressesKeepGood: for a press that draws a random card the invariant is promised only for -1 <= maxValue < 2^31 - 1, for the same reason.
- `UpdateTimesTableLabel` and `Debug.Log` only produce text for display and are not modelled.
- The division board's `quotientSlots` and `answerRows` are never read by its logic and are not modelled.

=== FILE: cs_int.dfy ===
/** C#'s 32-bit `int`: its range and the unchecked wrap-around of an
    arithmetic result that leaves it. Both boards keep their numbers in
    `int` fields. */
module CsInt {
  const Int32Min: int := -0x8000_0000
  const Int32Max: int := 0x7FFF_FFFF

  predicate InInt32(x: int) {
    Int32Min <= x <= Int32Max
  }

  /** C#'s unchecked 32-bit two's-complement wrap-around of an int result:
      whole turns of 2^32 are added or taken away until the value lies in
      the range. */
  function Wrap32(x: int): (w: int)
    ensures InInt32(w)
    ensures InInt32(x) ==> w == x
    ensures Int32Max < x <= Int32Max + 0x1_0000_0000 ==> w == x - 0x1_0000_0000
    decreases if x < Int32Min then Int32Min - x else x - Int32Max
  {
    if x < Int32Min then Wrap32(x + 0x1_0000_0000)
    else if x > Int32Max then Wrap32(x - 0x1_0000_0000)
    else x
  }

  /** The wrap-around changes a value by whole turns of 2^32. */
  lemma {:induction false} WrapCongruent(x: int)
    ensures (Wrap32(x) - x) % 0x1_0000_0000 == 0
    decreases if x < Int32Min then Int32Min - x else x - Int32Max
  {
    if x < Int32Min {
      WrapCongruent(x + 0x1_0000_0000);
    } else if x > Int32Max {
      WrapCongruent(x - 0x1_0000_0000);
    }
  }

  /** Wrap32 is the one value of the `int` range that differs from x by
      whole turns of 2^32. */
  lemma WrapUnique(x: int, y: int)
    requires InInt32(y) && (y - x) % 0x1_0000_0000 == 0
    ensures y == Wrap32(x)
  {
    WrapCongruent(x);
    var w := Wrap32(x);
    var k, j := (y - x) / 0x1_0000_0000, (w - x) / 0x1_0000_0000;
    assert y - w == (k - j) * 0x1_0000_0000;
  }

  /** The largest n with n * n <= Int32Max. */
  const SafeFactor: int := 46340

  /** Two factors of magnitude at most SafeFactor multiply without
      wrapping. */
  lemma SmallProduct(x: int, y: int)
    ensures -SafeFactor <= x <= SafeFactor && -SafeFactor <= y <= SafeFactor ==> InInt32(x * y)
  {
    if -SafeFactor <= x <= SafeFactor && -SafeFactor <= y <= SafeFactor {
      var ax := if x < 0 then -x else x;
      var ay := if y < 0 then -y else y;
      assert 0 <= (SafeFactor - ax) * ay;
      assert ax * ay == SafeFactor * ay - (SafeFactor - ax) * ay;
      assert 0 <= ax * ay <= SafeFactor * SafeFactor;
      if (x < 0) == (y < 0) {
        assert x * y == ax * ay;
      } else {
        assert x * y == -(ax * ay);
      }
    }
  }

  /** C#'s integer division, truncating toward zero. */
  function CsDiv(x: int, y: int): int
    requires y != 0
  {
    var m := (if x < 0 then -x else x) / (if y < 0 then -y else y);
    if (x < 0) == (y < 0) then m else -m
  }

  /** C#'s `%`, whose result takes the sign of the dividend. */
  function CsRem(x: int, y: int): int
    requires y != 0
  {
    x - y * CsDiv(x, y)
  }

  /** On non-negative operands C#'s operators are the mathematical ones,
      and a zero remainder makes the quotient exact. */
  lemma CsDivRem(x: int, y: int)
    requires y != 0
    ensures x >= 0 && y > 0 ==> CsDiv(x, y) == x / y && CsRem(x, y) == x % y
    ensures CsRem(x, y) == 0 ==> CsDiv(x, y) * y == x
  {
  }
}

=== FILE: digits.dfy ===
/** Decimal digits and their text form, shared by the steppers.

    Cell texts are strings; a digit is one of the ASCII characters '0'..'9'.
    `Offset(c)` is the C# expression `c - '0'`, which the source applies to
    any character, digit or not. */
module Digits {

  function Pow10(n: nat): (p: nat)
    ensures p >= 1
    ensures n > 0 ==> p % 10 == 0
  {
    if n == 0 then 1 else 10 * Pow10(n - 1)
  }

  predicate IsDigitChar(c: char) {
    '0' <= c <= '9'
  }

  /** `c - '0'` as C# evaluates it on a char. */
  function Offset(c: char): int {
    c as int - '0' as int
  }

  function DigitChar(d: nat): (c: char)
    requires d < 10
    ensures IsDigitChar(c) && Offset(c) == d
  {
    ('0' as int + d) as char
  }

  /** A cell whose text starts with a digit (C#: `!IsNullOrEmpty(t) && char.IsDigit(t[0])`). */
  predicate StartsWithDigit(t: string) {
    |t| > 0 && IsDigitChar(t[0])
  }

  /** A cell that holds some text (C#: `!IsNullOrEmpty(t)`). */
  predicate Filled(t: string) {
    |t| > 0
  }

  /** The value a cell contributes when read as a digit: its first character
      minus '0', and 0 for a blank cell. */
  function LeadValue(t: string): int {
    if |t| > 0 then Offset(t[0]) else 0
  }

  predicate AllDigits(t: string) {
    forall i :: 0 <= i < |t| ==> IsDigitChar(t[i])
  }

  /** Left fold `v := v * 10 + (c - '0')`, most significant character first. */
  function TextValue(t: string): int {
    if |t| == 0 then 0 else TextValue(t[..|t| - 1]) * 10 + Offset(t[|t| - 1])
  }

  /** C#'s `n.ToString()` for a non-negative int: shortest decimal form. */
  function NatText(n: nat): (t: string)
    ensures 1 <= |t| && AllDigits(t)
    ensures n < 10 <==> |t| == 1
    decreases n
  {
    if n < 10 then [DigitChar(n)] else NatText(n / 10) + [DigitChar(n % 10)]
  }

  /** C#'s `n.ToString()` for any int. */
  function IntText(n: int): string {
    if n < 0 then "-" + NatText(-n) else NatText(n)
  }

  /** A one-digit text reads back as its digit. */
  lemma DigitTextValue(d: nat)
    requires d < 10
    ensures NatText(d) == [DigitChar(d)]
    ensures StartsWithDigit(NatText(d)) && LeadValue(NatText(d)) == d
    ensures TextValue(NatText(d)) == d
  {
    var t := NatText(d);
    assert t[..0] == [];
  }

  /** Decimal text of a natural number reads back as that number. */
  lemma {:induction false} NatTextRoundTrip(n: nat)
    ensures TextValue(NatText(n)) == n
    decreases n
  {
    if n < 10 {
      DigitTextValue(n);
    } else {
      var prefix := NatText(n / 10);
      var t := prefix + [DigitChar(n % 10)];
      assert t[..|t| - 1] == prefix;
      NatTextRoundTrip(n / 10);
    }
  }

  /** A text of k digits denotes a value in [0, 10^k). */
  lemma {:induction false} TextValueBounds(t: string)
    requires AllDigits(t)
    ensures 0 <= TextValue(t) < Pow10(|t|)
  {
    if |t| > 0 {
      var p := t[..|t| - 1];
      assert AllDigits(p) by {
        forall i | 0 <= i < |p| ensures IsDigitChar(p[i]) {
          assert p[i] == t[i];
        }
      }
      TextValueBounds(p);
      assert IsDigitChar(t[|t| - 1]);
    }
  }

  /** Quotient and remainder are determined by the division equation. */
  lemma DivModUnique(x: int, m: int, q: int, r: int)
    requires m > 0 && 0 <= r < m && x == q * m + r
    ensures x / m == q && x % m == r
  {
    var q0, r0 := x / m, x % m;
    var d := q0 - q;
    assert d * m == q0 * m - q * m;
    assert d * m == r - r0;
    if d >= 1 {
      MulAtLeast(d, m);
    } else if d <= -1 {
      MulAtLeast(-d, m);
    }
  }

  lemma MulAtLeast(a: int, m: int)
    requires a >= 1 && m > 0
    ensures a * m >= m
  {
    assert a * m == (a - 1) * m + m;
  }

  /** Dividing by 10^(k+1) is dividing by 10 and then by 10^k. */
  lemma DivPow10Shift(x: nat, k: nat)
    ensures x / Pow10(k + 1) == (x / 10) / Pow10(k)
  {
    var p := Pow10(k);
    var q := (x / 10) / p;
    var r := ((x / 10) % p) * 10 + x % 10;
    assert x / 10 == q * p + (x / 10) % p;
    assert x == (x / 10) * 10 + x % 10;
    assert x == q * (p * 10) + r;
    assert 0 <= r < p * 10;
    DivModUnique(x, p * 10, q, r);
  }
}

=== FILE: flash_card.dfy ===
/** The arithmetic flash card: a table number, a step that cycles through
    1..maxValue, and one card per step showing "a op b", revealed by a click
    and replaced by the next card on the following click.

    Random.Range is not modelled as a function: the values it returned for
    one random card are a parameter (`Draws`), and `DrawsInRange` states
    what Unity promises about them. */
module FlashCards {
  import opened Digits
  import opened CsInt

  datatype Operation = Add | Subtract | Multiply | Divide | Random

  /** The operator shown between the two numbers; `Query` is the "?" of
      the fallback card. */
  datatype Symbol = Plus | Minus | Times | Obelus | Query

  /** The card's text: "{left} {symbol} {right}", followed by one
      "= {answer}" line for every reveal since the card was drawn. */
  datatype Card = Card(left: int, symbol: Symbol, right: int, shownAnswers: seq<int>)

  datatype MathFlashCard = MathFlashCard(
    tableNumber: int,
    maxValue: int,
    a: int,
    b: int,
    answer: int,
    showingAnswer: bool,
    currentStep: int,
    operation: Operation,
    card: Card)

  /** The values Random.Range returned while drawing one random card: the
      operation index, then the two numbers in the order the source draws
      them. */
  datatype Draws = Draws(op: int, first: int, second: int)

  function SymbolOf(op: Operation): Symbol {
    match op
    case Add => Plus
    case Subtract => Minus
    case Multiply => Times
    case Divide => Obelus
    case Random => Query
  }

  /** The answer on the back of a card is the value of the expression on
      its front (the fallback card "a ? 1" carries a itself). */
  predicate Honest(c: Card, answer: int) {
    match c.symbol
    case Plus => answer == c.left + c.right
    case Minus => answer == c.left - c.right
    case Times => answer == c.left * c.right
    case Obelus => c.right != 0 && answer * c.right == c.left
    case Query => c.right == 1 && answer == c.left
  }

  /** The answer is the card's value in C#'s unchecked 32-bit arithmetic:
      a sum, difference or product wraps, and a quotient times the divisor
      wraps back to the dividend. */
  predicate WrapHonest(c: Card, answer: int) {
    match c.symbol
    case Plus => answer == Wrap32(c.left + c.right)
    case Minus => answer == Wrap32(c.left - c.right)
    case Times => answer == Wrap32(c.left * c.right)
    case Obelus => c.right != 0 && Wrap32(c.right * answer) == Wrap32(c.left)
    case Query => c.right == 1 && answer == c.left
  }

  /** The exact values WrapHonest wraps all lie in the `int` range. */
  predicate Fits32(c: Card, answer: int) {
    match c.symbol
    case Plus => InInt32(c.left + c.right)
    case Minus => InInt32(c.left - c.right)
    case Times => InInt32(c.left * c.right)
    case Obelus => InInt32(c.right * answer) && InInt32(c.left)
    case Query => true
  }

  /** Where nothing wraps, the 32-bit answer is the true one and the true
      answer is the 32-bit one. */
  lemma HonestWithin32(c: Card, answer: int)
    ensures Fits32(c, answer) ==> (WrapHonest(c, answer) <==> Honest(c, answer))
  {
  }

  /** A table number and table size small enough that no sequential card
      can wrap: every operand is at most SafeFactor in magnitude. */
  predicate SmallOperands(a: int, maxValue: int) {
    -SafeFactor <= a <= SafeFactor && maxValue <= SafeFactor
  }

  // ---------------------------------------------------------------------
  // The step counter
  // ---------------------------------------------------------------------

  /** AdvanceStepSequential: 1 -> 2 -> ... -> maxValue -> 1. */
  function AdvanceStep(step: int, maxValue: int): (next: int)
    ensures step >= 0 ==> next >= 1
    ensures next == 1 || next == step + 1
    ensures next <= maxValue || next == 1
  {
    if step + 1 > maxValue then 1 else step + 1
  }

  /** The step lies in 1..maxValue (or is 1 when maxValue < 1). */
  predicate StepOk(step: int, maxValue: int) {
    1 <= step && (step <= maxValue || step == 1)
  }

  function Advances(step: int, maxValue: int, n: nat): int
    decreases n
  {
    if n == 0 then step else Advances(AdvanceStep(step, maxValue), maxValue, n - 1)
  }

  /** n advances from a step in 1..maxValue land on step + n, counted
      cyclically. */
  lemma {:induction false} AdvancesCycle(step: int, maxValue: int, n: nat)
    requires 1 <= step <= maxValue
    ensures Advances(step, maxValue, n) == (step - 1 + n) % maxValue + 1
    decreases n
  {
    if n > 0 {
      var next := AdvanceStep(step, maxValue);
      AdvancesCycle(next, maxValue, n - 1);
      if step == maxValue {
        // wrapping to 1 is adding one turn of the cycle
        var q, r := (n - 1) / maxValue, (n - 1) % maxValue;
        DivModUnique(step - 1 + n, maxValue, q + 1, r);
      }
    }
  }

  /** After maxValue advances the step is back where it started. */
  lemma CycleReturns(step: int, maxValue: int)
    requires 1 <= step <= maxValue
    ensures Advances(step, maxValue, maxValue as nat) == step
  {
    AdvancesCycle(step, maxValue, maxValue as nat);
    DivModUnique(step - 1 + maxValue, maxValue, 1, step - 1);
  }

  /** Every step k of the table comes up within maxValue - 1 advances. */
  lemma CycleVisits(step: int, maxValue: int, k: int)
    requires 1 <= step <= maxValue && 1 <= k <= maxValue
    ensures (k - step) % maxValue < maxValue
    ensures Advances(step, maxValue, ((k - step) % maxValue) as nat) == k
  {
    var n := (k - step) % maxValue;
    AdvancesCycle(step, maxValue, n as nat);
    var q := (k - step) / maxValue;
    assert k - step == q * maxValue + n;
    DivModUnique(step - 1 + n, maxValue, -q, k - 1);
  }

  // ---------------------------------------------------------------------
  // Drawing a card
  // ---------------------------------------------------------------------

  /** The state shows the fallback card "table ? 1", with a the table
      number, b = 1 and the table number as the answer. */
  predicate ShowsFallback(r: MathFlashCard, table: int) {
    && r.a == table && r.b == 1 && r.answer == table
    && r.card == Card(table, Query, 1, [])
  }

  /** The fallback card "a ? 1" the loop settles on after too many tries. */
  function Fallback(s: MathFlashCard): (r: MathFlashCard)
    ensures r.card.symbol == Query && Honest(r.card, r.answer)
    ensures r.a == s.tableNumber && r.b == 1 && r.answer == s.tableNumber
    ensures r.card == Card(s.tableNumber, Query, 1, [])
    ensures r.currentStep == s.currentStep && r.tableNumber == s.tableNumber
      && r.maxValue == s.maxValue && r.operation == s.operation
      && r.showingAnswer == s.showingAnswer
  {
    s.(a := s.tableNumber, b := 1, answer := s.tableNumber,
       card := Card(s.tableNumber, Query, 1, []))
  }

  /** The tries the loop skips with `continue`: a negative difference, a
      step that does not divide a, and every try in random mode, where no
      case of the switch matches. */
  predicate Skips(s: MathFlashCard) {
    match s.operation
    case Subtract => Wrap32(s.a - s.currentStep) < 0
    case Divide => s.currentStep == 0 || CsRem(s.a, s.currentStep) != 0
    case Random => true
    case _ => false
  }

  /** The state a skipped try leaves: b is the step tried and the step
      moves on, except in random mode, which does not advance it; a
      subtraction leaves its negative difference in `answer`. */
  function Skipped(s: MathFlashCard): (r: MathFlashCard)
    ensures r.b == s.currentStep
    ensures r.currentStep == (if s.operation == Random then s.currentStep
                              else AdvanceStep(s.currentStep, s.maxValue))
    ensures r.card == s.card && r.a == s.a && r.tableNumber == s.tableNumber
      && r.maxValue == s.maxValue && r.operation == s.operation
      && r.showingAnswer == s.showingAnswer
  {
    var step := s.currentStep;
    match s.operation
    case Subtract =>
      s.(b := step, currentStep := AdvanceStep(step, s.maxValue), answer := Wrap32(s.a - step))
    case Random => s.(b := step)
    case _ => s.(b := step, currentStep := AdvanceStep(step, s.maxValue))
  }

  /** The card a try that is not skipped draws: "a op step", answered in
      32-bit arithmetic, with b the step. */
  function Drawn(s: MathFlashCard): (r: MathFlashCard)
    requires !Skips(s)
    ensures WrapHonest(r.card, r.answer) && r.card.shownAnswers == []
    ensures r.card.symbol == Obelus ==> Honest(r.card, r.answer)
    ensures r.card.symbol == Minus ==> r.answer >= 0
    ensures r.card.symbol == SymbolOf(s.operation) && r.card.symbol != Query
    ensures r.card.left == s.a && r.card.right == s.currentStep
    ensures r.b == s.currentStep && r.currentStep == s.currentStep && r.a == s.a
    ensures r.tableNumber == s.tableNumber && r.maxValue == s.maxValue
      && r.operation == s.operation && r.showingAnswer == s.showingAnswer
  {
    var step := s.currentStep;
    var t := s.(b := step);
    match s.operation
    case Add => t.(answer := Wrap32(s.a + step), card := Card(s.a, Plus, step, []))
    case Subtract => t.(answer := Wrap32(s.a - step), card := Card(s.a, Minus, step, []))
    case Multiply => t.(answer := Wrap32(s.a * step), card := Card(s.a, Times, step, []))
    case Divide =>
      CsDivRem(s.a, step);
      t.(answer := CsDiv(s.a, step), card := Card(s.a, Obelus, step, []))
  }

  /** The `while (true)` loop of GenerateSequentialProblem, from the try
      numbered `safety`: more than maxValue + 5 tries (a 32-bit sum) give
      the fallback card, a skipped try moves on to the next one, and any
      other try draws its card. */
  function SequentialLoop(s: MathFlashCard, safety: int): (r: MathFlashCard)
    ensures WrapHonest(r.card, r.answer) && r.card.shownAnswers == []
    ensures r.card.symbol == Obelus ==> Honest(r.card, r.answer)
    ensures r.card.symbol == Query || (r.card.symbol == SymbolOf(s.operation)
      && r.card.left == s.a && r.card.right == r.b && r.b == r.currentStep && r.a == s.a)
    ensures r.card.symbol == Query ==> ShowsFallback(r, s.tableNumber)
    ensures r.card.symbol == Minus ==> r.answer >= 0
    ensures StepOk(s.currentStep, s.maxValue) ==> StepOk(r.currentStep, r.maxValue)
    ensures r.tableNumber == s.tableNumber && r.maxValue == s.maxValue
      && r.operation == s.operation && r.showingAnswer == s.showingAnswer
    decreases Wrap32(s.maxValue + 5) + 1 - safety
  {
    if safety > Wrap32(s.maxValue + 5) then Fallback(s)
    else if Skips(s) then SequentialLoop(Skipped(s), safety + 1)
    else Drawn(s)
  }

  /** GenerateSequentialProblem: a is the table number, b the step. */
  function GenerateSequentialProblem(s: MathFlashCard): (r: MathFlashCard)
    ensures WrapHonest(r.card, r.answer) && r.card.shownAnswers == []
    ensures StepOk(s.currentStep, s.maxValue) && SmallOperands(s.tableNumber, s.maxValue) ==>
      Honest(r.card, r.answer)
    ensures r.card.symbol == Obelus ==> Honest(r.card, r.answer)
    ensures r.a == s.tableNumber
    ensures r.card.symbol == Query || r.card.symbol == SymbolOf(s.operation)
    ensures r.card.symbol == Query ==> ShowsFallback(r, s.tableNumber)
    ensures r.card.symbol == Minus ==> r.answer >= 0
    ensures StepOk(s.currentStep, s.maxValue) ==> StepOk(r.currentStep, r.maxValue)
    ensures r.tableNumber == s.tableNumber && r.maxValue == s.maxValue
      && r.operation == s.operation && r.showingAnswer == s.showingAnswer
  {
    var r := SequentialLoop(s.(a := s.tableNumber), 0);
    SmallProduct(r.card.left, r.card.right);
    HonestWithin32(r.card, r.answer);
    r
  }

  /** What Unity's integer Random.Range(lo, hi) returns: a value in
      [lo, hi); lo itself when hi == lo; and, the bounds swapped, a value in
      (hi, lo] when hi < lo. */
  predicate RangeResult(lo: int, hi: int, v: int) {
    if hi == lo then v == lo
    else if lo < hi then lo <= v < hi
    else hi < v <= lo
  }

  /** The draws of one random card as the source makes them: the operation
      from [0, 4); the first number from [1, maxValue]; the second from
      [1, first] for a subtraction and from [1, maxValue] otherwise. The
      upper bounds maxValue + 1 and first + 1 are 32-bit `int` sums. */
  predicate DrawsInRange(maxValue: int, d: Draws) {
    RangeResult(0, 4, d.op)
    && RangeResult(1, Wrap32(maxValue + 1), d.first)
    && RangeResult(1, Wrap32((if d.op == 1 then d.first else maxValue) + 1), d.second)
  }

  /** The table sizes for which Random.Range(1, maxValue + 1) draws only
      positive numbers: below -1 the bounds are swapped and 0 can come up,
      and at 2^31 - 1 the bound maxValue + 1 wraps negative. */
  predicate RandomSafe(maxValue: int) {
    -1 <= maxValue < Int32Max
  }

  /** GenerateRandomProblem: x and y for +, -, x; for ÷ the divisor y and
      quotient q are drawn and x = y * q, all in 32-bit arithmetic. The
      card's numbers are not stored in a and b. */
  function GenerateRandomProblem(s: MathFlashCard, d: Draws): (r: MathFlashCard)
    ensures DrawsInRange(s.maxValue, d) ==>
      && r.card.shownAnswers == [] && r.card.symbol != Query
      && (r.card.symbol != Obelus ==> WrapHonest(r.card, r.answer))
      && (r.card.symbol == Obelus ==> Wrap32(r.card.right * r.answer) == r.card.left)
    ensures DrawsInRange(s.maxValue, d) && RandomSafe(s.maxValue) ==>
      && WrapHonest(r.card, r.answer)
      && (r.card.symbol == Minus ==> r.answer >= 0)
    ensures DrawsInRange(s.maxValue, d) && -1 <= s.maxValue <= SafeFactor ==>
      Honest(r.card, r.answer)
    ensures r.a == s.a && r.b == s.b && r.currentStep == s.currentStep
      && r.tableNumber == s.tableNumber && r.maxValue == s.maxValue
      && r.operation == s.operation && r.showingAnswer == s.showingAnswer
  {
    var r :=
      if d.op == 0 then
        s.(answer := Wrap32(d.first + d.second), card := Card(d.first, Plus, d.second, []))
      else if d.op == 1 then
        s.(answer := Wrap32(d.first - d.second), card := Card(d.first, Minus, d.second, []))
      else if d.op == 2 then
        s.(answer := Wrap32(d.first * d.second), card := Card(d.first, Times, d.second, []))
      else if d.op == 3 then
        var y, q := d.first, d.second;
        s.(answer := q, card := Card(Wrap32(y * q), Obelus, y, []))
      else
        s;
    SmallProduct(d.first, d.second);
    HonestWithin32(r.card, r.answer);
    r
  }

  /** GenerateNewProblem: hides the answer, then draws by mode. */
  function GenerateNewProblem(s: MathFlashCard, d: Draws): (r: MathFlashCard)
    ensures !r.showingAnswer
    ensures r.tableNumber == s.tableNumber && r.maxValue == s.maxValue
      && r.operation == s.operation
  {
    var t := s.(showingAnswer := false);
    if s.operation == Random then GenerateRandomProblem(t, d)
    else GenerateSequentialProblem(t)
  }

  // ---------------------------------------------------------------------
  // Buttons
  // ---------------------------------------------------------------------

  /** ResetSequence: back to step 1 with the answer hidden. */
  function ResetSequence(s: MathFlashCard, d: Draws): (r: MathFlashCard)
    ensures !r.showingAnswer
    ensures r.tableNumber == s.tableNumber && r.maxValue == s.maxValue
      && r.operation == s.operation
  {
    GenerateNewProblem(s.(currentStep := 1, showingAnswer := false), d)
  }

  function SetOperation(s: MathFlashCard, op: Operation, d: Draws): (r: MathFlashCard)
    ensures r.operation == op && !r.showingAnswer
    ensures r.tableNumber == s.tableNumber && r.maxValue == s.maxValue
  {
    ResetSequence(s.(operation := op), d)
  }

  function IncreaseTable(s: MathFlashCard, d: Draws): (r: MathFlashCard)
    ensures r.tableNumber <= s.maxValue
    ensures r.tableNumber == s.tableNumber + 1 || r.tableNumber == s.maxValue
    ensures !r.showingAnswer && r.maxValue == s.maxValue && r.operation == s.operation
  {
    var t := s.tableNumber + 1;
    ResetSequence(s.(tableNumber := if t > s.maxValue then s.maxValue else t), d)
  }

  function DecreaseTable(s: MathFlashCard, d: Draws): (r: MathFlashCard)
    ensures r.tableNumber >= 1
    ensures r.tableNumber == s.tableNumber - 1 || r.tableNumber == 1
    ensures !r.showingAnswer && r.maxValue == s.maxValue && r.operation == s.operation
  {
    var t := s.tableNumber - 1;
    ResetSequence(s.(tableNumber := if t < 1 then 1 else t), d)
  }

  /** OnFlashCardClicked: the first click shows the answer under the card;
      the next one moves on (to the next step outside random mode) and
      draws a new card. */
  function OnFlashCardClicked(s: MathFlashCard, d: Draws): (r: MathFlashCard)
    ensures r.showingAnswer == !s.showingAnswer
    ensures !s.showingAnswer ==>
      r == s.(showingAnswer := true, card := s.card.(shownAnswers := s.card.shownAnswers + [s.answer]))
    ensures r.tableNumber == s.tableNumber && r.maxValue == s.maxValue
      && r.operation == s.operation
  {
    if !s.showingAnswer then
      s.(card := s.card.(shownAnswers := s.card.shownAnswers + [s.answer]), showingAnswer := true)
    else if s.operation == Random then
      GenerateNewProblem(s, d)
    else
      GenerateNewProblem(s.(currentStep := AdvanceStep(s.currentStep, s.maxValue)), d)
  }

  /** Start: the fields' initial values, then ResetSequence. */
  function Start(tableNumber: int, maxValue: int, d: Draws): (r: MathFlashCard)
    ensures r.tableNumber == tableNumber && r.maxValue == maxValue
    ensures r.operation == Multiply && !r.showingAnswer
  {
    ResetSequence(MathFlashCard(tableNumber, maxValue, 0, 0, 0, false, 1, Multiply,
                                Card(0, Plus, 0, [])), d)
  }

  // ---------------------------------------------------------------------
  // Which step a sequential card lands on
  // ---------------------------------------------------------------------

  /** The steps the sequential loop accepts for an operation. */
  predicate Fits(op: Operation, a: int, step: int) {
    match op
    case Add => true
    case Multiply => true
    case Subtract => Wrap32(a - step) >= 0
    case Divide => step != 0 && CsRem(a, step) == 0
    case Random => false
  }

  /** Reference search: the least accepted step in from..maxValue, and 1
      when there is none (the step the cycle wraps round to). */
  function LeastFitFrom(op: Operation, a: int, from: int, maxValue: int): (k: int)
    ensures (from <= k <= maxValue && Fits(op, a, k)) || k == 1
    ensures from <= k <= maxValue ==> forall j :: from <= j < k ==> !Fits(op, a, j)
    ensures k == 1 && !(from <= 1 <= maxValue && Fits(op, a, 1)) ==>
      forall j :: from <= j <= maxValue ==> !Fits(op, a, j)
    decreases maxValue - from
  {
    if from > maxValue then 1
    else if Fits(op, a, from) then from
    else LeastFitFrom(op, a, from + 1, maxValue)
  }

  /** Step 1 is always accepted once the table number is positive, so the
      cycle always has somewhere to stop. */
  lemma OneFits(op: Operation, a: int)
    requires 1 <= a <= Int32Max && op != Random
    ensures Fits(op, a, 1)
  {
    if op == Divide {
      CsDivRem(a, 1);
    }
  }

  /** From try `safety` at a step in 1..maxValue with a positive table
      number, Subtract and Divide stop at the reference step before the
      fallback can trigger. */
  lemma {:induction false} LoopFindsStep(s: MathFlashCard, safety: int)
    requires s.operation == Subtract || s.operation == Divide
    requires 1 <= s.a <= Int32Max && 1 <= s.currentStep <= s.maxValue
    requires 0 <= safety && safety + s.maxValue - s.currentStep + 1 <= Wrap32(s.maxValue + 5)
    ensures var r := SequentialLoop(s, safety);
      && r.b == LeastFitFrom(s.operation, s.a, s.currentStep, s.maxValue)
      && r.card.symbol == SymbolOf(s.operation)
    decreases s.maxValue - s.currentStep
  {
    if Skips(s) {
      if s.currentStep == s.maxValue {
        OneFits(s.operation, s.a);
      } else {
        LoopFindsStep(Skipped(s), safety + 1);
      }
    }
  }

  /** Subtract stops at the current step when it does not exceed the table
      number, and otherwise wraps round to 1. */
  lemma {:induction false} SubtractStep(a: int, from: int, maxValue: int)
    requires 1 <= a <= Int32Max && 1 <= from <= maxValue <= Int32Max
    ensures LeastFitFrom(Subtract, a, from, maxValue) == (if from <= a then from else 1)
  {
    if from > a {
      assert forall j :: from <= j <= maxValue ==> !Fits(Subtract, a, j);
    }
  }

  /** With a positive table number and the step in 1..maxValue, a
      subtraction or division card never falls back: it is drawn at the
      first accepted step from the current one, wrapping round to 1. The
      bound maxValue + 5 must not wrap (see NoTriesFallsBack). */
  lemma SequentialNoFallback(s: MathFlashCard)
    requires s.operation == Subtract || s.operation == Divide
    requires 1 <= s.tableNumber <= Int32Max && 1 <= s.currentStep <= s.maxValue <= Int32Max - 5
    ensures var r := GenerateSequentialProblem(s);
      && r.card.symbol == SymbolOf(s.operation)
      && r.b == r.currentStep == LeastFitFrom(s.operation, s.tableNumber, s.currentStep, s.maxValue)
      && r.card.left == s.tableNumber && r.card.right == r.b
      && (s.operation == Subtract ==>
            r.b == (if s.currentStep <= s.tableNumber then s.currentStep else 1)
            && r.answer == s.tableNumber - r.b && r.answer >= 0)
      && (s.operation == Divide ==> r.answer * r.b == s.tableNumber)
  {
    var t := s.(a := s.tableNumber);
    assert Wrap32(s.maxValue + 5) == s.maxValue + 5;
    LoopFindsStep(t, 0);
    var r := SequentialLoop(t, 0);
    var k := LeastFitFrom(s.operation, s.tableNumber, s.currentStep, s.maxValue);
    assert r.b == k && r.card.symbol == SymbolOf(s.operation);
    if s.operation == Subtract {
      SubtractStep(s.tableNumber, s.currentStep, s.maxValue);
      assert 1 <= k <= s.maxValue;
      assert r.answer == Wrap32(s.tableNumber - k);
    }
  }

  /** A subtraction card for a table number below 1 has no step to stop
      at: every try is skipped and the fallback "a ? 1" is shown, as long
      as no difference a - step wraps past -2^31 (see SubtractWraps). */
  lemma {:induction false} SubtractFallsBack(s: MathFlashCard, safety: int)
    requires s.operation == Subtract && s.a < 1 && s.currentStep >= 1
    requires Int32Min <= s.a - s.currentStep && Int32Min <= s.a - s.maxValue
    ensures SequentialLoop(s, safety).card == Card(s.tableNumber, Query, 1, [])
    decreases Wrap32(s.maxValue + 5) + 1 - safety
  {
    if safety <= Wrap32(s.maxValue + 5) {
      SubtractFallsBack(Skipped(s), safety + 1);
    }
  }

  /** Random mode matches no case of the switch, so the sequential loop
      spins until the fallback card. */
  lemma RandomModeFallsBack(s: MathFlashCard)
    requires s.operation == Random
    ensures var r := GenerateSequentialProblem(s);
      && r.card == Card(s.tableNumber, Query, 1, [])
      && r.answer == s.tableNumber && r.a == s.tableNumber && r.b == 1
  {
  }

  /** With maxValue below -5, or so close to 2^31 - 1 that maxValue + 5
      wraps negative, the first try already exceeds the limit: every mode
      shows the fallback card, and the step does not move. */
  lemma NoTriesFallsBack(s: MathFlashCard)
    requires InInt32(s.maxValue) && (s.maxValue < -5 || s.maxValue > Int32Max - 5)
    ensures var r := GenerateSequentialProblem(s);
      && r.card == Card(s.tableNumber, Query, 1, [])
      && r.answer == s.tableNumber && r.b == 1 && r.currentStep == s.currentStep
  {
  }

  /** Addition and multiplication cards use the current step as it is,
      with the 32-bit sum or product as the answer, whenever the first try
      passes the limit (see NoTriesFallsBack for the rest). */
  lemma AddMultiplyAtStep(s: MathFlashCard)
    requires s.operation == Add || s.operation == Multiply
    requires -5 <= s.maxValue <= Int32Max - 5
    ensures var r := GenerateSequentialProblem(s);
      && r.b == s.currentStep && r.currentStep == s.currentStep
      && r.card.left == s.tableNumber && r.card.right == s.currentStep
      && r.answer == (if s.operation == Add then Wrap32(s.tableNumber + s.currentStep)
                      else Wrap32(s.tableNumber * s.currentStep))
  {
  }

  // ---------------------------------------------------------------------
  // Random cards
  // ---------------------------------------------------------------------

  /** Random cards stay within the table size: a subtraction's answer is in
      0..maxValue - 1, and a division has divisor and quotient in
      1..maxValue, exact in 32 bits and exactly so while no product of two
      draws can wrap. */
  lemma RandomCardBounds(s: MathFlashCard, d: Draws)
    requires 1 <= s.maxValue < Int32Max && DrawsInRange(s.maxValue, d)
    ensures var r := GenerateRandomProblem(s, d);
      && (r.card.symbol == Minus ==> 0 <= r.answer < s.maxValue)
      && (r.card.symbol == Obelus ==>
            && 1 <= r.card.right <= s.maxValue && 1 <= r.answer <= s.maxValue
            && Wrap32(r.card.right * r.answer) == r.card.left
            && (s.maxValue <= SafeFactor ==> r.answer * r.card.right == r.card.left))
  {
  }

  /** With a table size of -2 or less, Random.Range(1, maxValue + 1) has
      its bounds swapped and can return 0: a random division card then shows
      "0 ÷ 0", and a random subtraction can go negative. */
  lemma RandomDivisorZero(s: MathFlashCard)
    requires s.maxValue == -2
    ensures DrawsInRange(s.maxValue, Draws(3, 0, 1))
    ensures var r := GenerateRandomProblem(s, Draws(3, 0, 1));
      r.card == Card(0, Obelus, 0, []) && !WrapHonest(r.card, r.answer)
    ensures DrawsInRange(s.maxValue, Draws(1, 0, 1))
    ensures GenerateRandomProblem(s, Draws(1, 0, 1)).answer == -1
  {
  }

  /** At a table size of 2^31 - 1 the bound maxValue + 1 wraps to -2^31,
      so Random.Range returns a number in (-2^31, 1]: a divisor of 0 and a
      negative difference can come up. */
  lemma RandomAtMaxSize(s: MathFlashCard)
    requires s.maxValue == Int32Max
    ensures DrawsInRange(s.maxValue, Draws(3, 0, 1))
    ensures var r := GenerateRandomProblem(s, Draws(3, 0, 1));
      r.card == Card(0, Obelus, 0, []) && !WrapHonest(r.card, r.answer)
    ensures DrawsInRange(s.maxValue, Draws(1, -5, 1))
    ensures GenerateRandomProblem(s, Draws(1, -5, 1)).answer == -6
  {
  }

  /** Above SafeFactor a random product can wrap: with maxValue = 50000 the
      card "50000 × 50000" carries the answer -1794967296. */
  lemma RandomProductWraps(s: MathFlashCard)
    requires s.maxValue == 50000
    ensures DrawsInRange(s.maxValue, Draws(2, 50000, 50000))
    ensures var r := GenerateRandomProblem(s, Draws(2, 50000, 50000));
      && r.card == Card(50000, Times, 50000, []) && r.answer == -1794967296
      && WrapHonest(r.card, r.answer) && !Honest(r.card, r.answer)
  {
  }

  /** The sequential products wrap the same way: table 46341 at step 46341
      shows the answer -2147479015. */
  lemma SequentialProductWraps(s: MathFlashCard)
    requires s.operation == Multiply && s.tableNumber == 46341
    requires s.currentStep == 46341 && s.maxValue == 46341
    ensures var r := GenerateSequentialProblem(s);
      && r.card == Card(46341, Times, 46341, []) && r.answer == -2147479015
      && !Honest(r.card, r.answer)
  {
    AddMultiplyAtStep(s);
  }

  /** A table number of -2^31 wraps the first difference: the card
      "-2147483648 − 1" is shown with the answer 2147483647. */
  lemma SubtractWraps(s: MathFlashCard)
    requires s.operation == Subtract && s.tableNumber == Int32Min
    requires s.currentStep == 1 && s.maxValue == 20
    ensures var r := GenerateSequentialProblem(s);
      && r.card == Card(Int32Min, Minus, 1, []) && r.answer == Int32Max
      && !Honest(r.card, r.answer)
  {
  }

  // ---------------------------------------------------------------------
  // Invariants across button presses
  // ---------------------------------------------------------------------

  /** What every press keeps: the step is in range, the card's answer
      lines match showingAnswer, and the card is honest. */
  predicate Good(s: MathFlashCard) {
    && StepOk(s.currentStep, s.maxValue)
    && s.card.shownAnswers == (if s.showingAnswer then [s.answer] else [])
    && WrapHonest(s.card, s.answer)
  }

  lemma NewProblemGood(s: MathFlashCard, d: Draws)
    requires StepOk(s.currentStep, s.maxValue)
    requires s.operation == Random ==> DrawsInRange(s.maxValue, d) && RandomSafe(s.maxValue)
    ensures Good(GenerateNewProblem(s, d))
  {
  }

  lemma StartGood(tableNumber: int, maxValue: int, d: Draws)
    ensures Good(Start(tableNumber, maxValue, d))
  {
    NewProblemGood(MathFlashCard(tableNumber, maxValue, 0, 0, 0, false, 1, Multiply,
                                 Card(0, Plus, 0, [])), d);
  }

  /** Every button keeps the invariant, given draws Random.Range could
      return; a random card needs a table size in RandomSafe (see
      RandomDivisorZero and RandomAtMaxSize). */
  lemma PressesKeepGood(s: MathFlashCard, op: Operation, d: Draws)
    requires Good(s) && DrawsInRange(s.maxValue, d)
    ensures s.operation != Random || RandomSafe(s.maxValue) ==>
      && Good(OnFlashCardClicked(s, d))
      && Good(IncreaseTable(s, d))
      && Good(DecreaseTable(s, d))
    ensures op != Random || RandomSafe(s.maxValue) ==> Good(SetOperation(s, op, d))
  {
    if s.operation != Random || RandomSafe(s.maxValue) {
      ClickKeepsGood(s, d);
      TableButtonsKeepGood(s, d);
    }
    if op != Random || RandomSafe(s.maxValue) {
      NewProblemGood(s.(operation := op, currentStep := 1, showingAnswer := false), d);
    }
  }

  /** A click on the card keeps the invariant. */
  lemma ClickKeepsGood(s: MathFlashCard, d: Draws)
    requires Good(s) && DrawsInRange(s.maxValue, d)
    requires s.operation != Random || RandomSafe(s.maxValue)
    ensures Good(OnFlashCardClicked(s, d))
  {
    if s.showingAnswer {
      var t := if s.operation == Random then s
               else s.(currentStep := AdvanceStep(s.currentStep, s.maxValue));
      NewProblemGood(t, d);
    }
  }

  /** The table buttons keep the invariant. */
  lemma TableButtonsKeepGood(s: MathFlashCard, d: Draws)
    requires Good(s) && DrawsInRange(s.maxValue, d)
    requires s.operation != Random || RandomSafe(s.maxValue)
    ensures Good(IncreaseTable(s, d)) && Good(DecreaseTable(s, d))
  {
    var up := s.tableNumber + 1;
    NewProblemGood(s.(tableNumber := if up > s.maxValue then s.maxValue else up,
                      currentStep := 1, showingAnswer := false), d);
    var down := s.tableNumber - 1;
    NewProblemGood(s.(tableNumber := if down < 1 then 1 else down,
                      currentStep := 1, showingAnswer := false), d);
  }

  /** The table buttons keep a table number in 1..maxValue there, moving it
      by one and stopping at the ends. */
  lemma TableStaysInRange(s: MathFlashCard, d: Draws)
    requires 1 <= s.tableNumber <= s.maxValue
    ensures var up := IncreaseTable(s, d).tableNumber;
      1 <= up <= s.maxValue && up == (if s.tableNumber < s.maxValue then s.tableNumber + 1 else s.maxValue)
    ensures var down := DecreaseTable(s, d).tableNumber;
      1 <= down <= s.maxValue && down == (if s.tableNumber > 1 then s.tableNumber - 1 else 1)
  {
  }

  /** Outside random mode, a reset with a positive table number starts the
      sequence at step 1, hidden: step 1 is accepted by every operation. */
  lemma ResetStartsAtOne(s: MathFlashCard, d: Draws)
    requires s.operation != Random
    requires 1 <= s.tableNumber <= Int32Max && 1 <= s.maxValue <= Int32Max - 5
    ensures var r := ResetSequence(s, d);
      r.currentStep == 1 && r.b == 1 && !r.showingAnswer && r.card.right == 1
      && r.card.shownAnswers == []
  {
    var t := s.(currentStep := 1, showingAnswer := false);
    if s.operation == Subtract || s.operation == Divide {
      SequentialNoFallback(t);
    } else {
      AddMultiplyAtStep(t);
    }
  }

  /** Two clicks on a hidden card: the first shows its answer, the second
      draws the card for the next step (outside random mode). */
  lemma RevealThenNext(s: MathFlashCard, d: Draws)
    requires !s.showingAnswer && s.operation != Random
    ensures var shown := OnFlashCardClicked(s, d);
      && shown.showingAnswer && shown.card.shownAnswers == s.card.shownAnswers + [s.answer]
      && OnFlashCardClicked(shown, d)
         == GenerateSequentialProblem(s.(currentStep := AdvanceStep(s.currentStep, s.maxValue)))
  {
    var shown := OnFlashCardClicked(s, d);
    var t := s.(currentStep := AdvanceStep(s.currentStep, s.maxValue), a := s.tableNumber);
    LoopIgnoresCard(t, shown.card, 0);
  }

  /** What the card showed before has no bearing on the next card. */
  lemma {:induction false} LoopIgnoresCard(s: MathFlashCard, c: Card, safety: int)
    ensures SequentialLoop(s.(card := c), safety) == SequentialLoop(s, safety)
    decreases Wrap32(s.maxValue + 5) + 1 - safety
  {
    var s' := s.(card := c);
    if safety > Wrap32(s.maxValue + 5) {
      assert SequentialLoop(s', safety) == Fallback(s');
    } else if Skips(s) {
      assert SequentialLoop(s', safety) == SequentialLoop(Skipped(s'), safety + 1);
      SkipIgnoresCard(s, c);
      LoopIgnoresCard(Skipped(s), c, safety + 1);
    } else {
      assert SequentialLoop(s', safety) == Drawn(s');
      DrawIgnoresCard(s, c);
    }
  }

  /** A skipped try carries the old card along untouched. */
  lemma SkipIgnoresCard(s: MathFlashCard, c: Card)
    ensures Skipped(s.(card := c)) == Skipped(s).(card := c)
  {
  }

  /** A drawn card replaces the old one whatever it was. */
  lemma DrawIgnoresCard(s: MathFlashCard, c: Card)
    requires !Skips(s)
    ensures Drawn(s.(card := c)) == Drawn(s)
  {
  }
}

=== FILE: long_division.dfy ===
/** The long-division board's input validator and Step press counter.

    The first press of Step reads a two-cell divisor and a row of dividend
    cells; while that reading fails, the counter stays at 0 and an
    instruction says what is missing. After the first successful reading
    every press only increments the counter. There is no quotient,
    subtraction or bring-down logic on this board, so none is modelled. */
module LongDivision {
  import opened Digits
  import opened CsInt

  datatype Option<T> = None | Some(value: T)

  // ---------------------------------------------------------------------
  // Reading one cell: string.IsNullOrWhiteSpace, then int.TryParse
  // ---------------------------------------------------------------------

  /** The characters char.IsWhiteSpace accepts (the Unicode space
      separators, line and paragraph separators, and the controls
      U+0009..U+000D, U+0085). */
  predicate IsUnicodeWhite(c: char) {
    var n := c as int;
    9 <= n <= 13 || n == 0x20 || n == 0x85 || n == 0xA0 || n == 0x1680
    || 0x2000 <= n <= 0x200A || n == 0x2028 || n == 0x2029 || n == 0x202F
    || n == 0x205F || n == 0x3000
  }

  /** string.IsNullOrWhiteSpace, a null text being the empty string. */
  predicate NullOrWhiteSpace(t: string) {
    forall i :: 0 <= i < |t| ==> IsUnicodeWhite(t[i])
  }

  /** The white space int.TryParse skips around the number: U+0009..U+000D
      and U+0020 only. */
  predicate IsParseWhite(c: char) {
    var n := c as int;
    9 <= n <= 13 || n == 0x20
  }

  /** The first index at or after i that int.TryParse does not skip as
      white space, or |t|. */
  function SkipWhite(t: string, i: nat): (j: nat)
    requires i <= |t|
    ensures i <= j <= |t|
    ensures j < |t| ==> !IsParseWhite(t[j])
    decreases |t| - i
  {
    if i < |t| && IsParseWhite(t[i]) then SkipWhite(t, i + 1) else i
  }

  /** Moving left from j, the index just past the last character that is
      not white space, or lo. */
  function SkipWhiteBack(t: string, lo: nat, j: nat): (k: nat)
    requires lo <= j <= |t|
    ensures lo <= k <= j
    ensures k > lo ==> !IsParseWhite(t[k - 1])
  {
    if j > lo && IsParseWhite(t[j - 1]) then SkipWhiteBack(t, lo, j - 1) else j
  }

  /** Every character of t[i..j] is an ASCII digit. */
  predicate DigitsBetween(t: string, i: nat, j: nat)
    requires i <= j <= |t|
    decreases j - i
  {
    j == i || (IsDigitChar(t[j - 1]) && DigitsBetween(t, i, j - 1))
  }

  /** The decimal value of t[i..j], most significant digit first. */
  function ValueBetween(t: string, i: nat, j: nat): int
    requires i <= j <= |t|
    decreases j - i
  {
    if j == i then 0 else ValueBetween(t, i, j - 1) * 10 + Offset(t[j - 1])
  }

  /** int.TryParse with the default integer style: surrounding white
      space, one optional leading sign, then one or more ASCII digits whose
      value fits in 32 bits. */
  function ParseInt32(t: string): (r: Option<int>)
    ensures r.Some? ==> InInt32(r.value)
  {
    var lo := SkipWhite(t, 0);
    ParseSpan(t, lo, SkipWhiteBack(t, lo, |t|))
  }

  /** The parse of t[lo..hi], the text between the white space. */
  function ParseSpan(t: string, lo: nat, hi: nat): (r: Option<int>)
    requires lo <= hi <= |t|
    ensures r.Some? ==> InInt32(r.value)
  {
    if lo == hi then None
    else
      var start := if t[lo] == '-' || t[lo] == '+' then lo + 1 else lo;
      if start == hi || !DigitsBetween(t, start, hi) then None
      else
        var m := ValueBetween(t, start, hi);
        var v := if t[lo] == '-' then -m else m;
        if InInt32(v) then Some(v) else None
  }

  /** The span functions read the same digits as the text functions. */
  lemma {:induction false} SpanIsText(t: string, i: nat, j: nat)
    requires i <= j <= |t|
    ensures ValueBetween(t, i, j) == TextValue(t[i..j])
    ensures DigitsBetween(t, i, j) <==> AllDigits(t[i..j])
    decreases j - i
  {
    if j > i {
      SpanIsText(t, i, j - 1);
      var u, p := t[i..j], t[i..j - 1];
      assert u[..|u| - 1] == p;
      assert u[|u| - 1] == t[j - 1];
      assert AllDigits(u) <==> AllDigits(p) && IsDigitChar(t[j - 1]) by {
        assert forall k :: 0 <= k < |p| ==> u[k] == p[k];
      }
    }
  }

  /** TryReadDigit: a blank or white-space cell reads as (false, 0);
      otherwise the cell reads as whatever int.TryParse makes of it. */
  function TryReadDigit(t: string): (r: (bool, int))
    ensures r.0 <==> ParseInt32(t).Some?
    ensures r.0 ==> r.1 == ParseInt32(t).value
    ensures !r.0 ==> r.1 == 0
  {
    if NullOrWhiteSpace(t) then
      WhiteSpaceDoesNotParse(t);
      (false, 0)
    else
      match ParseInt32(t)
      case Some(v) => (true, v)
      case None => (false, 0)
  }

  /** The cell reads as a number. */
  predicate Reads(t: string) {
    TryReadDigit(t).0
  }

  /** The white-space check in front of the parse never changes the
      outcome: a blank or all-white text does not parse anyway. */
  lemma WhiteSpaceDoesNotParse(t: string)
    requires NullOrWhiteSpace(t)
    ensures ParseInt32(t).None?
  {
    var lo := SkipWhite(t, 0);
    var hi := SkipWhiteBack(t, lo, |t|);
    if lo < hi {
      var c := t[lo];
      assert IsUnicodeWhite(c) && !IsParseWhite(c);
      assert c != '-' && c != '+';
      assert !DigitsBetween(t, lo, hi) by {
        NotAllDigits(t, lo, hi, lo);
      }
    }
  }

  lemma {:induction false} NotAllDigits(t: string, i: nat, j: nat, k: nat)
    requires i <= k < j <= |t| && !IsDigitChar(t[k])
    ensures !DigitsBetween(t, i, j)
    decreases j - i
  {
    if k < j - 1 {
      NotAllDigits(t, i, j - 1, k);
    }
  }

  /** A cell reading back C#'s decimal text of any 32-bit int. */
  lemma ParseIntText(n: int)
    requires InInt32(n)
    ensures ParseInt32(IntText(n)) == Some(n)
  {
    var t := IntText(n);
    var m: nat := if n < 0 then -n else n;
    var digits := NatText(m);
    NatTextRoundTrip(m);
    assert SkipWhite(t, 0) == 0 by {
      assert !IsParseWhite(t[0]);
    }
    assert SkipWhiteBack(t, 0, |t|) == |t| by {
      assert t[|t| - 1] == digits[|digits| - 1];
      assert IsDigitChar(digits[|digits| - 1]);
    }
    var start := if n < 0 then 1 else 0;
    assert t[start..|t|] == digits;
    SpanIsText(t, start, |t|);
    if n >= 0 {
      assert IsDigitChar(t[0]);
    }
  }

  /** The text of a digit tile dropped onto a cell. */
  function Tile(d: nat): string
    requires d < 10
  {
    [DigitChar(d)]
  }

  /** A digit tile reads as its digit. */
  lemma ReadsDigitTile(d: nat)
    requires d < 10
    ensures TryReadDigit(Tile(d)) == (true, d)
  {
    DigitTextValue(d);
    ParseIntText(d);
  }

  // ---------------------------------------------------------------------
  // Reading the dividend row
  // ---------------------------------------------------------------------

  /** What `read` makes of each cell of a row, in row order. */
  function ReadAll(row: seq<string>, read: string -> (bool, int)): (rs: seq<(bool, int)>)
    ensures |rs| == |row|
    ensures forall i :: 0 <= i < |row| ==> rs[i] == read(row[i])
  {
    if |row| == 0 then [] else ReadAll(row[..|row| - 1], read) + [read(row[|row| - 1])]
  }

  /** The values of the successful readings, in order. */
  function Kept(rs: seq<(bool, int)>): (ds: seq<int>)
    ensures |ds| <= |rs|
  {
    if |rs| == 0 then []
    else Kept(rs[..|rs| - 1]) + (if rs[|rs| - 1].0 then [rs[|rs| - 1].1] else [])
  }

  /** The values of the dividend cells that read, in row order; cells that
      do not read are skipped, so gaps between digits close up. */
  function ParsedDigits(row: seq<string>): (ds: seq<int>)
    ensures |ds| <= |row|
  {
    Kept(ReadAll(row, TryReadDigit))
  }

  lemma {:induction false} KeptAppend(a: seq<(bool, int)>, b: seq<(bool, int)>)
    ensures Kept(a + b) == Kept(a) + Kept(b)
    decreases |b|
  {
    if |b| == 0 {
      assert a + b == a;
    } else {
      var b' := b[..|b| - 1];
      assert (a + b)[..|a + b| - 1] == a + b';
      assert (a + b)[|a + b| - 1] == b[|b| - 1];
      KeptAppend(a, b');
    }
  }

  lemma {:induction false} KeptEmpty(rs: seq<(bool, int)>)
    ensures |Kept(rs)| == 0 <==> forall i :: 0 <= i < |rs| ==> !rs[i].0
  {
    if |rs| > 0 {
      var p := rs[..|rs| - 1];
      KeptEmpty(p);
      assert forall i :: 0 <= i < |p| ==> p[i] == rs[i];
    }
  }

  lemma ReadAllAppend(a: seq<string>, b: seq<string>, read: string -> (bool, int))
    ensures ReadAll(a + b, read) == ReadAll(a, read) + ReadAll(b, read)
  {
    var l, r := ReadAll(a + b, read), ReadAll(a, read) + ReadAll(b, read);
    forall i | 0 <= i < |l| ensures l[i] == r[i] {
      if i < |a| {
        assert (a + b)[i] == a[i];
      } else {
        assert (a + b)[i] == b[i - |a|];
      }
    }
  }

  /** Reading a row is reading its two halves one after the other. */
  lemma ParsedDigitsAppend(a: seq<string>, b: seq<string>)
    ensures ParsedDigits(a + b) == ParsedDigits(a) + ParsedDigits(b)
  {
    ReadAllAppend(a, b, TryReadDigit);
    KeptAppend(ReadAll(a, TryReadDigit), ReadAll(b, TryReadDigit));
  }

  /** A row reads nothing exactly when none of its cells reads. */
  lemma ParsedDigitsEmpty(row: seq<string>)
    ensures |ParsedDigits(row)| == 0 <==> forall i :: 0 <= i < |row| ==> !Reads(row[i])
  {
    KeptEmpty(ReadAll(row, TryReadDigit));
  }

  /** Tiles spelling a digit sequence, each cell one digit. */
  function TileRow(ds: seq<nat>): (row: seq<string>)
    requires forall i :: 0 <= i < |ds| ==> ds[i] < 10
    ensures |row| == |ds|
  {
    if |ds| == 0 then [] else TileRow(ds[..|ds| - 1]) + [Tile(ds[|ds| - 1])]
  }

  /** A row of digit tiles reads back as its digits. */
  lemma {:induction false} TileRowRoundTrip(ds: seq<nat>)
    requires forall i :: 0 <= i < |ds| ==> ds[i] < 10
    ensures ParsedDigits(TileRow(ds)) == ds
  {
    if |ds| > 0 {
      var p, d := ds[..|ds| - 1], ds[|ds| - 1];
      assert TileRow(ds) == TileRow(p) + [Tile(d)];
      ParsedDigitsAppend(TileRow(p), [Tile(d)]);
      TileReadsDigit(d);
      TileRowRoundTrip(p);
      assert ds == p + [d];
    }
  }

  lemma TileReadsDigit(d: nat)
    requires d < 10
    ensures ParsedDigits([Tile(d)]) == [d]
  {
    ReadsDigitTile(d);
    assert ReadAll([Tile(d)], TryReadDigit) == [(true, d)];
    assert Kept([(true, d)]) == [d] by {
      assert [(true, d)][..0] == [];
    }
  }

  /** Empty cells between tiles are skipped. */
  lemma BlankCellsSkipped(a: seq<string>, b: seq<string>)
    ensures ParsedDigits(a + [""] + b) == ParsedDigits(a + b)
  {
    BlankCellReadsNothing();
    ParsedDigitsAppend(a + [""], b);
    ParsedDigitsAppend(a, [""]);
    ParsedDigitsAppend(a, b);
  }

  lemma BlankCellReadsNothing()
    ensures ParsedDigits([""]) == []
  {
    assert ReadAll([""], TryReadDigit) == [(false, 0)];
    assert Kept([(false, 0)]) == [] by {
      assert [(false, 0)][..0] == [];
    }
  }

  // ---------------------------------------------------------------------
  // Board state
  // ---------------------------------------------------------------------

  /** The instruction line under the board. */
  datatype Instruction =
    | PutDigits               // shown on start
    | DivisorRowMissing
    | FillBothDivisorDigits
    | DividendRowMissing
    | PutDividendDigit
    | StepThroughDivision     // shown once the numbers are read

  /** The board's rows; a row that was never hooked up is None. */
  datatype Board = Board(divisorRow: Option<seq<string>>, dividendRow: Option<seq<string>>)

  /** `dividendDigits` is empty until a reading succeeds (the source's null
      array); `lineShown` is the division bar above the dividend. */
  datatype Division = Division(
    divisor: int,
    dividendDigits: seq<int>,
    stepIndex: int,
    lineShown: bool,
    instruction: Instruction)

  function Start(): (s: Division)
    ensures s.stepIndex == 0 && !s.lineShown && s.instruction == PutDigits
  {
    Division(0, [], 0, false, PutDigits)
  }

  /** The divisor row has its two cells and both read. */
  predicate DivisorReadable(row: Option<seq<string>>) {
    row.Some? && |row.value| >= 2
    && Reads(row.value[0]) && Reads(row.value[1])
  }

  /** Some cell of the dividend row reads. */
  predicate DividendReadable(row: Option<seq<string>>) {
    row.Some? && exists i :: 0 <= i < |row.value| && Reads(row.value[i])
  }

  /** The value the two divisor cells denote, with C#'s 32-bit
      arithmetic for `d1 * 10 + d2`. */
  function DivisorValue(row: seq<string>): int
    requires |row| >= 2
  {
    Wrap32(TryReadDigit(row[0]).1 * 10 + TryReadDigit(row[1]).1)
  }

  /** The dividend half of LoadNumbers, run once the divisor has read. */
  function LoadDividend(s: Division, row: Option<seq<string>>): (r: (bool, Division))
    ensures r.0 <==> DividendReadable(row)
    ensures r.0 ==> r.1 == s.(dividendDigits := ParsedDigits(row.value)) && |r.1.dividendDigits| > 0
    ensures !r.0 ==> r.1.dividendDigits == s.dividendDigits && r.1.divisor == s.divisor
    ensures r.1.stepIndex == s.stepIndex && r.1.lineShown == s.lineShown
  {
    if row.None? || |row.value| == 0 then
      (false, s.(instruction := DividendRowMissing))
    else
      var ds := ParsedDigits(row.value);
      ParsedDigitsEmpty(row.value);
      if |ds| == 0 then
        (false, s.(instruction := PutDividendDigit))
      else
        (true, s.(dividendDigits := ds))
  }

  /** The divisor half of LoadNumbers. */
  function LoadDivisor(s: Division, row: Option<seq<string>>): (r: (bool, Division))
    ensures r.0 <==> DivisorReadable(row)
    ensures r.0 ==> r.1 == s.(divisor := DivisorValue(row.value))
    ensures !r.0 ==> r.1 == s.(instruction := r.1.instruction)
  {
    if row.None? || |row.value| < 2 then
      (false, s.(instruction := DivisorRowMissing))
    else
      var first := TryReadDigit(row.value[0]);
      var second := TryReadDigit(row.value[1]);
      if !first.0 || !second.0 then
        (false, s.(instruction := FillBothDivisorDigits))
      else
        // C# evaluates d1 * 10 + d2 in unchecked 32-bit arithmetic.
        (true, s.(divisor := Wrap32(first.1 * 10 + second.1)))
  }

  /** LoadNumbers: reads the divisor, then the dividend; reports the first
      thing missing. The divisor is stored as soon as it reads, even when
      the dividend then fails. */
  function LoadNumbers(s: Division, b: Board): (r: (bool, Division))
    ensures r.0 <==> DivisorReadable(b.divisorRow) && DividendReadable(b.dividendRow)
    ensures r.0 ==>
      && r.1.divisor == DivisorValue(b.divisorRow.value)
      && r.1.dividendDigits == ParsedDigits(b.dividendRow.value)
      && |r.1.dividendDigits| > 0
    ensures !r.0 ==> r.1.dividendDigits == s.dividendDigits
    ensures r.1.stepIndex == s.stepIndex && r.1.lineShown == s.lineShown
  {
    var d := LoadDivisor(s, b.divisorRow);
    if !d.0 then d else LoadDividend(d.1, b.dividendRow)
  }

  /** Step: the first press reads the board and, once the numbers are read,
      shows the bar; every press after that only counts, with C#'s 32-bit
      `stepIndex++`. */
  function Step(s: Division, b: Board): (r: Division)
    ensures s.stepIndex != 0 ==> r == s.(stepIndex := Wrap32(s.stepIndex + 1))
    ensures s.stepIndex == 0 ==>
      (r.stepIndex == 1 <==> DivisorReadable(b.divisorRow) && DividendReadable(b.dividendRow))
    ensures s.stepIndex == 0 ==> (r.stepIndex == 0 || r.stepIndex == 1)
    ensures s.stepIndex == 0 && r.stepIndex == 1 ==>
      r.lineShown && r.instruction == StepThroughDivision
      && r.dividendDigits == ParsedDigits(b.dividendRow.value)
  {
    if s.stepIndex == 0 then
      var (ok, s1) := LoadNumbers(s, b);
      if !ok then s1
      else s1.(lineShown := true, instruction := StepThroughDivision, stepIndex := 1)
    else
      s.(stepIndex := Wrap32(s.stepIndex + 1))
  }

  /** Which failure a reading reports: the divisor row is checked before the
      dividend row, whatever the dividend row holds. */
  lemma LoadCheckOrder(s: Division, b: Board)
    ensures var r := LoadNumbers(s, b).1;
      && (b.divisorRow.None? || |b.divisorRow.value| < 2 ==>
            r.instruction == DivisorRowMissing)
      && (b.divisorRow.Some? && |b.divisorRow.value| >= 2 && !DivisorReadable(b.divisorRow) ==>
            r.instruction == FillBothDivisorDigits)
      && (DivisorReadable(b.divisorRow) && (b.dividendRow.None? || |b.dividendRow.value| == 0) ==>
            r.instruction == DividendRowMissing && r.divisor == DivisorValue(b.divisorRow.value))
      && (DivisorReadable(b.divisorRow) && b.dividendRow.Some? && |b.dividendRow.value| > 0
          && !DividendReadable(b.dividendRow) ==>
            r.instruction == PutDividendDigit && r.divisor == DivisorValue(b.divisorRow.value))
  {
  }

  /** The divisor is not checked for being positive: "0" "0" reads as 0. */
  lemma ZeroDivisorAccepted(dividend: seq<string>)
    requires DividendReadable(Some(dividend))
    ensures var r := LoadNumbers(Start(), Board(Some(["0", "0"]), Some(dividend)));
      r.0 && r.1.divisor == 0
  {
    ReadsDigitTile(0);
    assert Tile(0) == "0";
  }

  /** Two digit tiles in the divisor row give the two-digit divisor. */
  lemma DivisorOfTiles(d1: nat, d2: nat, rest: seq<string>)
    requires d1 < 10 && d2 < 10
    ensures DivisorReadable(Some([Tile(d1), Tile(d2)] + rest))
    ensures DivisorValue([Tile(d1), Tile(d2)] + rest) == 10 * d1 + d2
  {
    ReadsDigitTile(d1);
    ReadsDigitTile(d2);
  }

  /** A sequence of presses, each seeing the board as it then stands. */
  function Presses(s: Division, boards: seq<Board>): Division
    decreases |boards|
  {
    if |boards| == 0 then s else Presses(Step(s, boards[0]), boards[1..])
  }

  /** While the board cannot be read, the counter stays at 0 and nothing is
      loaded. */
  lemma {:induction false} FailedLoadsKeepZero(s: Division, boards: seq<Board>)
    requires s.stepIndex == 0
    requires forall i :: 0 <= i < |boards| ==>
      !(DivisorReadable(boards[i].divisorRow) && DividendReadable(boards[i].dividendRow))
    ensures Presses(s, boards).stepIndex == 0
    ensures Presses(s, boards).dividendDigits == s.dividendDigits
    ensures Presses(s, boards).lineShown == s.lineShown
    decreases |boards|
  {
    if |boards| > 0 {
      var s1 := Step(s, boards[0]);
      assert s1.stepIndex == 0;
      FailedLoadsKeepZero(s1, boards[1..]);
    }
  }

  /** After the first successful reading, n more presses add n to the
      counter and change nothing else, whatever the board shows meanwhile
      (as long as the counter does not pass 2^31 - 1). */
  lemma {:induction false} PressesCount(s: Division, boards: seq<Board>)
    requires 1 <= s.stepIndex && s.stepIndex + |boards| <= Int32Max
    ensures Presses(s, boards) == s.(stepIndex := s.stepIndex + |boards|)
    decreases |boards|
  {
    if |boards| > 0 {
      var s1 := Step(s, boards[0]);
      assert s1 == s.(stepIndex := s.stepIndex + 1);
      PressesCount(s1, boards[1..]);
    }
  }

  /** The counter is a C# int: the press after 2^31 - 1 wraps it to -2^31. */
  lemma CounterWraps(s: Division, b: Board)
    requires s.stepIndex == Int32Max
    ensures Step(s, b).stepIndex == Int32Min
  {
  }
}

=== FILE: long_math.dfy ===
/** The long-multiplication stepper behind the board.

    Every press of Step runs `StepThrough`: the first press reads the two
    operand rows; later presses advance one phase of the column-by-column
    multiplication
        Highlight -> Multiply -> WriteOnes -> [WriteCarry] -> Advance -> Highlight ...
    writing one digit of a partial product per round. Once every bottom digit
    has been used, one press marks the last partial row with "+", and every
    press after that writes top * bottom right-aligned into the final row.

    Cells are plain texts; highlights, colours and rich-text narration are
    not modelled. Columns are indices into a row, counted from the left. */
module LongMath {
  import opened Digits
  import opened Scan
  import opened CsInt

  datatype Phase = Highlight | Multiply | WriteOnes | WriteCarry | Advance

  /** What `BuildNumber` returns: a value and the column span it was read
      from; (-1, -1, 0) when the row holds no digit. */
  datatype Span = Span(value: int, start: int, length: int)

  /** The cell texts the stepper reads and writes. */
  datatype Board = Board(
    top: seq<string>,
    bottom: seq<string>,
    carryRow: seq<string>,
    answers: seq<seq<string>>,
    final: seq<string>)

  /** The instruction line, without its colour markup. */
  datatype Message =
    | Untouched
    | FillBothNumbers
    | RowsNotReady
    | Equation(top: int, bottom: int)
    | Fact(topDigit: int, bottomDigit: int, carry: int, product: int)
    | AddPartials
    | Complete

  datatype Stepper = Stepper(
    phase: Phase,
    topIndex: int,        // digit of the top operand, counted from the right
    bottomIndex: int,     // digit of the bottom operand, counted from the right
    answerRow: int,       // partial-product row being written
    carry: int,
    product: int,
    topNumber: int,
    bottomNumber: int,
    loaded: bool,
    topStart: int,
    bottomStart: int,
    topLength: int,
    bottomLength: int,
    onesColumn: int,      // rightmost column of an answer row
    showedPlus: bool,
    board: Board,
    message: Message)

  const Blank: string := ""
  const CarryMark: string := "C"
  const PlusMark: string := "+"
  const TimesMark: string := "×"

  function Min(a: int, b: int): int {
    if a <= b then a else b
  }

  // ---------------------------------------------------------------------
  // Reading an operand row

  /** The first character of each cell. */
  function Leads(cells: seq<string>): (t: string)
    requires forall i :: 0 <= i < |cells| ==> |cells[i]| > 0
    ensures |t| == |cells|
    ensures forall i :: 0 <= i < |cells| ==> t[i] == cells[i][0]
  {
    seq(|cells|, i requires 0 <= i < |cells| => cells[i][0])
  }

  function FirstDigitCell(row: seq<string>): int {
    FirstFrom(row, 0, StartsWithDigit)
  }

  function LastDigitCell(row: seq<string>): int {
    LastBefore(row, |row|, StartsWithDigit)
  }

  /** The source reads `text[0]` of every cell between the first and the last
      digit cell, so each of them must hold some text. */
  predicate SpanReadable(row: seq<string>) {
    forall i :: FirstDigitCell(row) <= i <= LastDigitCell(row) && 0 <= i < |row| ==> Filled(row[i])
  }

  /** Reads the run of cells from the first to the last cell whose text
      starts with a digit, folding `v * 10 + (text[0] - '0')` over it. */
  function BuildNumber(row: seq<string>): (r: Span)
    requires SpanReadable(row)
    ensures r.start == -1 <==> forall i :: 0 <= i < |row| ==> !StartsWithDigit(row[i])
    ensures r.start == -1 ==> r.value == -1 && r.length == 0
    ensures r.start != -1 ==>
      && 0 <= r.start && 1 <= r.length && r.start + r.length <= |row|
      && StartsWithDigit(row[r.start])
      && StartsWithDigit(row[r.start + r.length - 1])
      && (forall i :: 0 <= i < |row| && !(r.start <= i < r.start + r.length) ==> !StartsWithDigit(row[i]))
      && (forall i :: r.start <= i < r.start + r.length ==> |row[i]| > 0)
  {
    var first := FirstDigitCell(row);
    if first == -1 then
      Span(-1, -1, 0)
    else
      var last := LastDigitCell(row);
      Span(TextValue(Leads(row[first..last + 1])), first, last - first + 1)
  }

  /** Place-value extraction: digit `i` of `n`, counted from the right. */
  function GetDigit(n: nat, i: nat): (d: nat)
    ensures d < 10
  {
    (n / Pow10(i)) % 10
  }

  // ---------------------------------------------------------------------
  // Board writes

  function ClearCarryRow(b: Board): (r: Board)
    ensures |r.carryRow| == |b.carryRow|
    ensures forall i :: 0 <= i < |r.carryRow| ==> r.carryRow[i] == CarryMark
    ensures r == b.(carryRow := r.carryRow)
  {
    b.(carryRow := seq(|b.carryRow|, _ => CarryMark))
  }

  function ClearAnswerRows(b: Board): (r: Board)
    ensures |r.answers| == |b.answers|
    ensures forall k :: 0 <= k < |b.answers| ==> |r.answers[k]| == |b.answers[k]|
    ensures forall k, i :: 0 <= k < |r.answers| && 0 <= i < |r.answers[k]| ==> r.answers[k][i] == Blank
    ensures r == b.(answers := r.answers)
  {
    b.(answers := seq(|b.answers|, k requires 0 <= k < |b.answers| => seq(|b.answers[k]|, _ => Blank)))
  }

  /** Writes `mark` into the cell just left of the first filled cell at
      index 1 or more; leaves the row alone when there is none. */
  function MarkBeforeFirstFilled(row: seq<string>, mark: string): (r: seq<string>)
    ensures |r| == |row|
  {
    var j := FirstFrom(row, 1, Filled);
    if j == -1 then row else row[j - 1 := mark]
  }

  function ShowMultiplySignForBottomRow(b: Board): (r: Board)
    ensures |r.bottom| == |b.bottom|
    ensures r == b.(bottom := r.bottom)
  {
    b.(bottom := MarkBeforeFirstFilled(b.bottom, TimesMark))
  }

  function ShowPlusSignForAddition(b: Board): (r: Board)
    requires |b.answers| > 0
    ensures |r.answers| == |b.answers|
    ensures forall k :: 0 <= k < |b.answers| - 1 ==> r.answers[k] == b.answers[k]
    ensures |r.answers[|b.answers| - 1]| == |b.answers[|b.answers| - 1]|
    ensures r == b.(answers := r.answers)
  {
    var last := |b.answers| - 1;
    b.(answers := b.answers[last := MarkBeforeFirstFilled(b.answers[last], PlusMark)])
  }

  /** Writes one digit into an answer cell; the source indexes the row
      without a bounds check, so the cell must exist. */
  function WriteAnswerDigit(b: Board, row: int, col: int, digit: nat): (r: Board)
    requires 0 <= row < |b.answers| && 0 <= col < |b.answers[row]| && digit < 10
    ensures |r.answers| == |b.answers|
    ensures forall k :: 0 <= k < |b.answers| ==> |r.answers[k]| == |b.answers[k]|
    ensures forall k, i :: 0 <= k < |b.answers| && 0 <= i < |b.answers[k]| ==>
      r.answers[k][i] == (if k == row && i == col then NatText(digit) else b.answers[k][i])
    ensures r == b.(answers := r.answers)
  {
    b.(answers := b.answers[row := b.answers[row][col := NatText(digit)]])
  }

  /** The final-row loop: from the rightmost cell leftwards, write
      `result % 10` while `result > 0` (a blank otherwise), then divide by
      10 with C#'s truncating `/`. A result that starts at zero or below
      stays there, so its row is all blank. */
  function FinalRow(result: int, width: nat): (r: seq<string>)
    ensures |r| == width
    decreases width
  {
    if width == 0 then []
    else FinalRow(CsDiv(result, 10), width - 1) + [if result > 0 then NatText(result % 10) else Blank]
  }

  /** The final row gets `int result = topNumber * bottomNumber`, computed
      in 32-bit arithmetic. */
  function WriteFinalAnswer(b: Board, topNumber: int, bottomNumber: int): (r: Board)
    ensures |r.final| == |b.final|
    ensures r == b.(final := r.final)
  {
    b.(final := FinalRow(Wrap32(topNumber * bottomNumber), |b.final|))
  }

  // ---------------------------------------------------------------------
  // Loading and resetting

  /** The state `Start` leaves behind: all C# fields at their defaults,
      then `ResetState`. */
  function Start(b: Board): (s: Stepper)
    ensures !s.loaded && s.phase == Highlight
  {
    ResetState(Stepper(Highlight, 0, 0, 0, 0, 0, 0, 0, false, 0, 0, 0, 0, 0, false, b, Untouched))
  }

  function ResetState(s: Stepper): (r: Stepper)
    ensures r.topIndex == 0 && r.bottomIndex == 0 && r.answerRow == 0
    ensures r.carry == 0 && r.product == 0
    ensures !r.loaded && !r.showedPlus && r.phase == Highlight
    ensures r.board == ClearAnswerRows(ClearCarryRow(s.board))
    ensures r.topNumber == s.topNumber && r.bottomNumber == s.bottomNumber
    ensures r.topStart == s.topStart && r.topLength == s.topLength
    ensures r.bottomStart == s.bottomStart && r.bottomLength == s.bottomLength
    ensures r.onesColumn == s.onesColumn && r.message == s.message
  {
    s.(topIndex := 0, bottomIndex := 0, answerRow := 0, carry := 0, product := 0,
       loaded := false, showedPlus := false,
       board := ClearAnswerRows(ClearCarryRow(s.board)),
       phase := Highlight)
  }

  /** The answer grid the stepper needs: at least one row, all rows one
      width, wide enough for the leftmost column it will write. */
  predicate RowsFit(b: Board, topLength: int) {
    && |b.answers| >= 1
    && (forall k :: 0 <= k < |b.answers| ==> |b.answers[k]| == |b.answers[0]|)
    && topLength + |b.answers| - 1 <= |b.answers[0]|
  }

  /** A board the first press can load and then step without an
      out-of-range write. */
  predicate Loadable(b: Board) {
    && SpanReadable(b.top)
    && SpanReadable(b.bottom)
    && (|b.answers| >= 1 ==> RowsFit(b, BuildNumber(b.top).length))
  }

  /** Reads both operands. On a missing operand it fails before any reset;
      with no answer rows it fails after the reset. */
  function LoadNumbers(s: Stepper): (r: (bool, Stepper))
    requires SpanReadable(s.board.top) && SpanReadable(s.board.bottom)
    ensures r.0 ==> r.1.loaded && r.1.phase == Highlight && r.1.topIndex == 0 && r.1.bottomIndex == 0
    ensures r.1.loaded == (r.0 || (s.loaded && r.1.message == FillBothNumbers))
  {
    var t := BuildNumber(s.board.top);
    var u := BuildNumber(s.board.bottom);
    var s1 := s.(topNumber := t.value, topStart := t.start, topLength := t.length,
                 bottomNumber := u.value, bottomStart := u.start, bottomLength := u.length);
    if t.value < 0 || u.value < 0 then
      (false, s1.(message := FillBothNumbers))
    else
      var s2 := ResetState(s1);
      if |s2.board.answers| == 0 then
        (false, s2.(message := RowsNotReady))
      else
        (true, s2.(onesColumn := |s2.board.answers[0]| - 1, loaded := true,
                   message := Equation(t.value, u.value)))
  }

  // ---------------------------------------------------------------------
  // Stepping

  /** The state invariant of a loaded stepper. */
  predicate Valid(s: Stepper) {
    && s.loaded
    && 0 <= s.topStart && 1 <= s.topLength && s.topStart + s.topLength <= |s.board.top|
    && 0 <= s.bottomStart && 1 <= s.bottomLength && s.bottomStart + s.bottomLength <= |s.board.bottom|
    && 0 <= s.topNumber && 0 <= s.bottomNumber
    && 0 <= s.topIndex < s.topLength
    && 0 <= s.bottomIndex <= s.bottomLength
    && RowsFit(s.board, s.topLength)
    && s.onesColumn == |s.board.answers[0]| - 1
    && s.answerRow == Min(s.bottomIndex, |s.board.answers| - 1)
    && 0 <= s.carry <= 8
    && 0 <= s.product <= 89
  }

  function TopColumn(s: Stepper): int {
    s.topStart + (s.topLength - 1 - s.topIndex)
  }

  function BottomColumn(s: Stepper): int {
    s.bottomStart + (s.bottomLength - 1 - s.bottomIndex)
  }

  function AnswerColumn(s: Stepper): int {
    s.onesColumn - s.topIndex - s.answerRow
  }

  predicate Finished(s: Stepper) {
    s.bottomIndex >= s.bottomLength
  }

  lemma DigitProductBound(a: nat, b: nat, c: nat)
    requires a < 10 && b < 10 && c <= 8
    ensures a * b + c <= 89
  {
    assert a * b <= 9 * b by {
      assert (9 - a) * b >= 0;
    }
  }

  /** What no step changes: the operands and their spans, the ones column,
      the top row, and the size of every other row. */
  predicate KeepsShape(s: Stepper, r: Stepper) {
    && r.topNumber == s.topNumber && r.bottomNumber == s.bottomNumber
    && r.topStart == s.topStart && r.topLength == s.topLength
    && r.bottomStart == s.bottomStart && r.bottomLength == s.bottomLength
    && r.onesColumn == s.onesColumn
    && r.board.top == s.board.top && |r.board.bottom| == |s.board.bottom|
    && |r.board.carryRow| == |s.board.carryRow| && |r.board.final| == |s.board.final|
    && |r.board.answers| == |s.board.answers|
  }

  /** One phase of the multiplication, or the "+" marker, or the final row. */
  function RunStep(s: Stepper): (r: Stepper)
    requires Valid(s)
    ensures Valid(r) && KeepsShape(s, r)
  {
    if Finished(s) then FinishStep(s)
    else
      match s.phase
      case Highlight => HighlightStep(s)
      case Multiply => MultiplyStep(s)
      case WriteOnes => WriteOnesStep(s)
      case WriteCarry => WriteCarryStep(s)
      case Advance => AdvanceStep(s)
  }

  /** After the last partial row: the "+" marker once, then the final row. */
  function FinishStep(s: Stepper): (r: Stepper)
    requires Valid(s) && Finished(s)
    ensures Valid(r) && KeepsShape(s, r)
  {
    if !s.showedPlus then
      s.(board := ShowPlusSignForAddition(s.board), showedPlus := true, message := AddPartials)
    else
      s.(board := WriteFinalAnswer(s.board, s.topNumber, s.bottomNumber), message := Complete)
  }

  /** Highlight: marks "×" before the bottom operand on the very first round. */
  function HighlightStep(s: Stepper): (r: Stepper)
    requires Valid(s) && !Finished(s)
    ensures Valid(r) && KeepsShape(s, r)
  {
    var b := if s.topIndex == 0 && s.bottomIndex == 0 then ShowMultiplySignForBottomRow(s.board) else s.board;
    s.(board := b, phase := Multiply, message := Equation(s.topNumber, s.bottomNumber))
  }

  /** Multiply: the digits under the cursors times each other, plus the carry. */
  function MultiplyStep(s: Stepper): (r: Stepper)
    requires Valid(s) && !Finished(s)
    ensures Valid(r) && KeepsShape(s, r)
  {
    var topDigit := GetDigit(s.topNumber, s.topIndex);
    var bottomDigit := GetDigit(s.bottomNumber, s.bottomIndex);
    var p := topDigit * bottomDigit + s.carry;
    DigitProductBound(topDigit, bottomDigit, s.carry);
    s.(product := p, message := Fact(topDigit, bottomDigit, s.carry, p), phase := WriteOnes)
  }

  /** WriteOnes: the ones digit of the product into the answer row. */
  function WriteOnesStep(s: Stepper): (r: Stepper)
    requires Valid(s) && !Finished(s)
    ensures Valid(r) && KeepsShape(s, r)
  {
    var c := s.product / 10;
    s.(board := WriteAnswerDigit(s.board, s.answerRow, AnswerColumn(s), s.product % 10),
       carry := c,
       phase := if c > 0 then WriteCarry else Advance)
  }

  /** WriteCarry: the carry into the carry row, left of the top digit's column. */
  function WriteCarryStep(s: Stepper): (r: Stepper)
    requires Valid(s) && !Finished(s)
    ensures Valid(r) && KeepsShape(s, r)
  {
    var carryUI := TopColumn(s) - 1;
    var b := if 0 <= carryUI < |s.board.carryRow|
             then s.board.(carryRow := s.board.carryRow[carryUI := NatText(s.carry)])
             else s.board;
    s.(board := b, phase := Advance)
  }

  /** Advance: the next top digit, or the next partial row with the carry
      dropped and the carry row cleared. */
  function AdvanceStep(s: Stepper): (r: Stepper)
    requires Valid(s) && !Finished(s)
    ensures Valid(r) && KeepsShape(s, r)
  {
    var next := s.topIndex + 1;
    if next >= s.topLength then
      s.(topIndex := 0, bottomIndex := s.bottomIndex + 1,
         answerRow := Min(s.answerRow + 1, |s.board.answers| - 1),
         carry := 0, board := ClearCarryRow(s.board), phase := Highlight)
    else
      s.(topIndex := next, phase := Highlight)
  }

  /** A press of Step: load on the first press (stopping there if the load
      fails), then run one step. */
  function StepThrough(s: Stepper): (r: Stepper)
    requires s.loaded ==> Valid(s)
    requires !s.loaded ==> Loadable(s.board)
    ensures r.loaded ==> Valid(r)
    ensures !r.loaded ==> Loadable(r.board)
  {
    if !s.loaded then
      var (ok, s1) := LoadNumbers(s);
      if !ok then s1 else RunStep(s1)
    else
      RunStep(s)
  }
}

=== FILE: long_math_proofs.dfy ===
/** Properties of the long-multiplication stepper: what an operand row reads
    as, how loading resets the board, the order of phases, the digit/carry
    invariant of a partial-product row, and the final answer row. */
module LongMathProofs {
  import opened Digits
  import opened Scan
  import opened LongMath
  import opened CsInt

  // ---------------------------------------------------------------------
  // Place values

  /** Splitting off digit i: n mod 10^(i+1) is n mod 10^i plus digit i
      in place i. */
  lemma GetDigitPlaceValue(n: nat, i: nat)
    ensures n % Pow10(i + 1) == n % Pow10(i) + GetDigit(n, i) * Pow10(i)
  {
    var p := Pow10(i);
    var q := n / p;
    var d := q % 10;
    assert n == q * p + n % p;
    assert q == (q / 10) * 10 + d;
    SplitProduct(q / 10, d, p);
    DigitTimesBound(d, p);
    assert Pow10(i + 1) == p * 10;
    DivModUnique(n, p * 10, q / 10, d * p + n % p);
  }

  lemma SplitProduct(h: int, d: int, p: int)
    ensures (h * 10 + d) * p == h * (p * 10) + d * p
  {
  }

  lemma DigitTimesBound(d: int, p: int)
    requires 0 <= d <= 9 && p > 0
    ensures 0 <= d * p <= 9 * p
  {
    assert (9 - d) * p >= 0;
  }

  /** Digit k of a digit text's value is the k-th character from the right. */
  lemma {:induction false} GetDigitOfText(t: string, k: nat)
    requires AllDigits(t) && k < |t|
    ensures 0 <= TextValue(t) && GetDigit(TextValue(t), k) == Offset(t[|t| - 1 - k])
  {
    TextValueBounds(t);
    var p := t[..|t| - 1];
    assert AllDigits(p) by {
      forall i | 0 <= i < |p| ensures IsDigitChar(p[i]) {
        assert p[i] == t[i];
      }
    }
    TextValueBounds(p);
    var c := Offset(t[|t| - 1]);
    assert IsDigitChar(t[|t| - 1]);
    var v := TextValue(t);
    assert v == TextValue(p) * 10 + c;
    if k == 0 {
      DivModUnique(v, 10, TextValue(p), c);
    } else {
      DivModUnique(v, 10, TextValue(p), c);
      DivPow10Shift(v, k - 1);
      GetDigitOfText(p, k - 1);
      assert p[|p| - 1 - (k - 1)] == t[|t| - 1 - k];
    }
  }

  /** Every cell of the span starts with a digit. */
  predicate SpanAllDigits(row: seq<string>)
    requires SpanReadable(row)
  {
    var r := BuildNumber(row);
    forall i :: r.start <= i < r.start + r.length ==> StartsWithDigit(row[i])
  }

  /** When the span is made of digit cells, the value read is a number of
      `length` digits, and its digit k (from the right) is the digit shown
      at column start + length - 1 - k: the column the stepper highlights
      for cursor k. */
  lemma BuildNumberReadsDigits(row: seq<string>)
    requires SpanReadable(row) && SpanAllDigits(row)
    requires BuildNumber(row).start != -1
    ensures var r := BuildNumber(row);
      && 0 <= r.value < Pow10(r.length)
      && forall k :: 0 <= k < r.length ==>
           GetDigit(r.value, k) == Offset(row[r.start + r.length - 1 - k][0])
  {
    var r := BuildNumber(row);
    var first := FirstDigitCell(row);
    var last := LastDigitCell(row);
    var cells := row[first..last + 1];
    var t := Leads(cells);
    assert r.value == TextValue(t);
    assert AllDigits(t) by {
      forall i | 0 <= i < |t| ensures IsDigitChar(t[i]) {
        assert t[i] == row[first + i][0];
        assert StartsWithDigit(row[first + i]);
      }
    }
    TextValueBounds(t);
    forall k | 0 <= k < r.length
      ensures GetDigit(r.value, k) == Offset(row[r.start + r.length - 1 - k][0])
    {
      GetDigitOfText(t, k);
      assert t[|t| - 1 - k] == row[first + (|t| - 1 - k)][0];
    }
  }

  // ---------------------------------------------------------------------
  // Loading

  /** With an operand row holding no number, loading fails and touches no
      cursor, carry, flag or cell; only the operand fields are rewritten. */
  lemma LoadFailsOnMissingOperand(s: Stepper)
    requires SpanReadable(s.board.top) && SpanReadable(s.board.bottom)
    requires (forall i :: 0 <= i < |s.board.top| ==> !StartsWithDigit(s.board.top[i]))
          || (forall i :: 0 <= i < |s.board.bottom| ==> !StartsWithDigit(s.board.bottom[i]))
    ensures var r := LoadNumbers(s).1;
      && !LoadNumbers(s).0
      && r.message == FillBothNumbers
      && r.board == s.board
      && r.phase == s.phase && r.loaded == s.loaded && r.showedPlus == s.showedPlus
      && r.topIndex == s.topIndex && r.bottomIndex == s.bottomIndex && r.answerRow == s.answerRow
      && r.carry == s.carry && r.product == s.product && r.onesColumn == s.onesColumn
  {
  }

  /** A successful load zeroes every cursor and the carry, enters Highlight,
      fixes the ones column at the last cell of answer row 0, sets every
      carry cell to "C" and blanks every answer cell, leaving the operand
      rows and the final row as they were. */
  lemma LoadResetsState(s: Stepper)
    requires SpanReadable(s.board.top) && SpanReadable(s.board.bottom)
    requires LoadNumbers(s).0
    ensures var r := LoadNumbers(s).1;
      && r.loaded && r.phase == Highlight && !r.showedPlus
      && r.topIndex == 0 && r.bottomIndex == 0 && r.answerRow == 0
      && r.carry == 0 && r.product == 0
      && r.topNumber == BuildNumber(s.board.top).value >= 0
      && r.bottomNumber == BuildNumber(s.board.bottom).value >= 0
      && r.topStart == BuildNumber(s.board.top).start && r.topLength == BuildNumber(s.board.top).length
      && r.bottomStart == BuildNumber(s.board.bottom).start && r.bottomLength == BuildNumber(s.board.bottom).length
      && |r.board.answers| == |s.board.answers| >= 1
      && r.onesColumn == |s.board.answers[0]| - 1
      && (forall i :: 0 <= i < |r.board.carryRow| ==> r.board.carryRow[i] == CarryMark)
      && (forall k, i :: 0 <= k < |r.board.answers| && 0 <= i < |r.board.answers[k]| ==> r.board.answers[k][i] == Blank)
      && r.board.top == s.board.top && r.board.bottom == s.board.bottom && r.board.final == s.board.final
  {
  }

  lemma ClearsIdempotent(b: Board)
    ensures ClearAnswerRows(ClearCarryRow(ClearAnswerRows(ClearCarryRow(b)))) == ClearAnswerRows(ClearCarryRow(b))
  {
    var c := ClearAnswerRows(ClearCarryRow(b));
    var c2 := ClearAnswerRows(ClearCarryRow(c));
    assert c2.carryRow == c.carryRow;
    assert |c2.answers| == |c.answers|;
    forall k | 0 <= k < |c.answers| ensures c2.answers[k] == c.answers[k] {
    }
  }

  /** Loading twice from the same operand rows gives the same state as
      loading once. */
  lemma LoadIdempotent(s: Stepper)
    requires SpanReadable(s.board.top) && SpanReadable(s.board.bottom)
    ensures LoadNumbers(LoadNumbers(s).1) == LoadNumbers(s)
  {
    if BuildNumber(s.board.top).value >= 0 && BuildNumber(s.board.bottom).value >= 0 {
      ReloadAfterReset(s);
    }
  }

  /** The reload of a board whose operands both read: the second reset
      clears cells the first already cleared. */
  lemma ReloadAfterReset(s: Stepper)
    requires SpanReadable(s.board.top) && SpanReadable(s.board.bottom)
    requires BuildNumber(s.board.top).value >= 0 && BuildNumber(s.board.bottom).value >= 0
    ensures LoadNumbers(LoadNumbers(s).1) == LoadNumbers(s)
  {
    ClearsIdempotent(s.board);
  }

  // ---------------------------------------------------------------------
  // One step at a time

  /** The phase order of one round, and that the cursors, the operands and
      the showed-plus flag only move where the round says. */
  lemma PhaseOrder(s: Stepper)
    requires Valid(s) && !Finished(s)
    ensures var r := RunStep(s);
      && (s.phase == Highlight ==> r.phase == Multiply)
      && (s.phase == Multiply ==> r.phase == WriteOnes)
      && (s.phase == WriteOnes ==> (r.phase == WriteCarry <==> r.carry > 0))
      && (s.phase == WriteOnes ==> (r.phase == Advance <==> r.carry == 0))
      && (s.phase == WriteCarry ==> r.phase == Advance)
      && (s.phase == Advance ==> r.phase == Highlight)
      && (s.phase != Advance ==> r.topIndex == s.topIndex && r.bottomIndex == s.bottomIndex && r.answerRow == s.answerRow)
      && r.showedPlus == s.showedPlus
  {
  }

  /** Multiply forms topDigit * bottomDigit + carry from the digits under the
      cursors. */
  lemma MultiplyFormsProduct(s: Stepper)
    requires Valid(s) && !Finished(s) && s.phase == Multiply
    ensures var r := RunStep(s);
      && r.product == GetDigit(s.topNumber, s.topIndex) * GetDigit(s.bottomNumber, s.bottomIndex) + s.carry
      && r.product <= 89
      && r.board == s.board && r.carry == s.carry
  {
  }

  /** WriteOnes puts product mod 10 into the answer cell
      onesColumn - topIndex - answerRow of the current row, changes no other
      cell, and keeps product div 10 (at most 8) as the carry. */
  lemma WriteOnesWritesColumn(s: Stepper)
    requires Valid(s) && !Finished(s) && s.phase == WriteOnes
    ensures var r := RunStep(s);
      var col := s.onesColumn - s.topIndex - s.answerRow;
      && 0 <= col < |s.board.answers[s.answerRow]|
      && r.board.answers[s.answerRow][col] == NatText(s.product % 10)
      && (forall k, i :: 0 <= k < |s.board.answers| && 0 <= i < |s.board.answers[k]| && (k != s.answerRow || i != col) ==>
            r.board.answers[k][i] == s.board.answers[k][i])
      && r.board.carryRow == s.board.carryRow && r.board.final == s.board.final
      && r.carry == s.product / 10 <= 8
  {
  }

  /** WriteCarry writes the carry one column left of the top digit when that
      cell exists, and otherwise writes nothing; it always moves to Advance. */
  lemma WriteCarryGuarded(s: Stepper)
    requires Valid(s) && !Finished(s) && s.phase == WriteCarry
    ensures var r := RunStep(s);
      var col := TopColumn(s) - 1;
      && r.phase == Advance
      && r.board.answers == s.board.answers
      && (0 <= col < |s.board.carryRow| ==> r.board.carryRow == s.board.carryRow[col := NatText(s.carry)])
      && (!(0 <= col < |s.board.carryRow|) ==> r.board == s.board)
  {
  }

  /** Advance moves to the next top digit; after the last one it restarts
      the top cursor, moves to the next bottom digit and answer row (the
      row index stops at the last row), drops the carry and resets the
      carry row to "C". */
  lemma AdvanceMovesCursors(s: Stepper)
    requires Valid(s) && !Finished(s) && s.phase == Advance
    ensures var r := RunStep(s);
      && (s.topIndex + 1 < s.topLength ==>
            r == s.(topIndex := s.topIndex + 1, phase := Highlight))
      && (s.topIndex + 1 == s.topLength ==>
            && r.topIndex == 0 && r.bottomIndex == s.bottomIndex + 1
            && r.answerRow == Min(s.answerRow + 1, |s.board.answers| - 1)
            && r.carry == 0
            && (forall i :: 0 <= i < |r.board.carryRow| ==> r.board.carryRow[i] == CarryMark)
            && r.board.answers == s.board.answers)
  {
  }

  /** Cell i is the one just left of the first filled cell at index 1 or more. */
  predicate LeftOfFirstFilled(row: seq<string>, i: int) {
    && 0 <= i && i + 1 < |row|
    && Filled(row[i + 1])
    && (forall k :: 1 <= k <= i ==> !Filled(row[k]))
  }

  /** The mark goes into the cell just left of the first filled cell at
      index 1 or more, and nowhere else. */
  lemma MarkBeforeFirstFilledPlacement(row: seq<string>, mark: string)
    ensures var r := MarkBeforeFirstFilled(row, mark);
      forall i :: 0 <= i < |row| ==> r[i] == (if LeftOfFirstFilled(row, i) then mark else row[i])
  {
    var r := MarkBeforeFirstFilled(row, mark);
    var j := FirstFrom(row, 1, Filled);
    forall i | 0 <= i < |row|
      ensures r[i] == (if LeftOfFirstFilled(row, i) then mark else row[i])
    {
      if j == -1 {
        if i + 1 < |row| {
          assert !Filled(row[i + 1]);
        }
      } else if i == j - 1 {
      } else if i < j - 1 {
        assert !Filled(row[i + 1]);
      } else {
        assert Filled(row[j]);
      }
    }
  }

  /** A bottom operand that fills columns 0 and 1 loses its leading digit
      to the multiplication sign on the first press. */
  lemma TimesSignOverwritesColumnZero(s: Stepper)
    requires Valid(s) && s.phase == Highlight && s.topIndex == 0 && s.bottomIndex == 0
    requires |s.board.bottom| >= 2 && Filled(s.board.bottom[1])
    ensures RunStep(s).board.bottom[0] == TimesMark
  {
    MarkBeforeFirstFilledPlacement(s.board.bottom, TimesMark);
  }

  /** Highlight writes the multiply sign on the very first round only, into
      the bottom-row cell left of the bottom number's first filled cell;
      every other cell and every other row is left as it was. */
  lemma HighlightWrites(s: Stepper)
    requires Valid(s) && !Finished(s) && s.phase == Highlight
    ensures var r := RunStep(s);
      && r == s.(board := r.board, phase := Multiply, message := Equation(s.topNumber, s.bottomNumber))
      && r.board == s.board.(bottom := r.board.bottom)
      && |r.board.bottom| == |s.board.bottom|
      && forall i :: 0 <= i < |s.board.bottom| ==>
           r.board.bottom[i]
           == (if s.topIndex == 0 && s.bottomIndex == 0 && LeftOfFirstFilled(s.board.bottom, i)
               then TimesMark else s.board.bottom[i])
  {
    MarkBeforeFirstFilledPlacement(s.board.bottom, TimesMark);
  }

  // ---------------------------------------------------------------------
  // The digit/carry invariant of a partial-product row

  /** The value of n cells read leftwards from column col, the cell at col
      being the ones place; blank cells count 0. */
  function RowReading(row: seq<string>, col: int, n: nat): int
    requires n <= col + 1 && col < |row|
  {
    if n == 0 then 0 else RowReading(row, col, n - 1) + LeadValue(row[col - (n - 1)]) * Pow10(n - 1)
  }

  /** Reading depends only on the cells read. */
  lemma {:induction false} RowReadingFrame(row: seq<string>, row': seq<string>, col: int, n: nat)
    requires n <= col + 1 && col < |row| && |row'| == |row|
    requires forall c :: col - n < c <= col ==> row'[c] == row[c]
    ensures RowReading(row', col, n) == RowReading(row, col, n)
  {
    if n > 0 {
      RowReadingFrame(row, row', col, n - 1);
      assert row'[col - (n - 1)] == row[col - (n - 1)];
    }
  }

  /** Within a partial row, before digit i is multiplied:
        (the i digits written so far) + carry * 10^i == (top mod 10^i) * bottomDigit,
      with the corresponding forms while the product is pending and after
      digit i has been written. */
  predicate RowInvariant(s: Stepper)
    requires Valid(s)
  {
    !Finished(s) ==>
      var i := s.topIndex;
      var base := s.onesColumn - s.answerRow;
      var row := s.board.answers[s.answerRow];
      var bd := GetDigit(s.bottomNumber, s.bottomIndex);
      match s.phase
      case Highlight | Multiply =>
        RowReading(row, base, i) + s.carry * Pow10(i) == (s.topNumber % Pow10(i)) * bd
      case WriteOnes =>
        RowReading(row, base, i) + s.product * Pow10(i) == (s.topNumber % Pow10(i + 1)) * bd
      case WriteCarry | Advance =>
        RowReading(row, base, i + 1) + s.carry * Pow10(i + 1) == (s.topNumber % Pow10(i + 1)) * bd
  }

  /** A fresh load satisfies the row invariant. */
  lemma LoadEstablishesRowInvariant(s: Stepper)
    requires Loadable(s.board) && LoadNumbers(s).0
    ensures Valid(LoadNumbers(s).1) && RowInvariant(LoadNumbers(s).1)
  {
    var r := LoadNumbers(s).1;
    assert r.topIndex == 0 && r.carry == 0;
    assert r.topNumber % Pow10(0) == 0;
  }

  /** The arithmetic of one Multiply: adding digit i of the top operand. */
  lemma AddTopDigit(written: int, carry: int, td: int, bd: int, p: int, low: int, low1: int)
    requires written + carry * p == low * bd && low1 == low + td * p
    ensures written + (td * bd + carry) * p == low1 * bd
  {
    assert (td * bd + carry) * p == td * bd * p + carry * p;
    assert (low + td * p) * bd == low * bd + td * p * bd;
  }

  lemma MultiplyKeepsRowInvariant(s: Stepper)
    requires Valid(s) && !Finished(s) && s.phase == Multiply && RowInvariant(s)
    ensures RowInvariant(RunStep(s))
  {
    var r := RunStep(s);
    var i := s.topIndex;
    var td := GetDigit(s.topNumber, i);
    var bd := GetDigit(s.bottomNumber, s.bottomIndex);
    var row := s.board.answers[s.answerRow];
    var base := s.onesColumn - s.answerRow;
    MultiplyFormsProduct(s);
    PhaseOrder(s);
    assert r.phase == WriteOnes && r.topIndex == i && r.answerRow == s.answerRow && r.bottomIndex == s.bottomIndex;
    GetDigitPlaceValue(s.topNumber, i);
    AddTopDigit(RowReading(row, base, i), s.carry, td, bd, Pow10(i),
                s.topNumber % Pow10(i), s.topNumber % Pow10(i + 1));
  }

  /** Writing the ones digit of the product at column base - i extends the
      reading by one place and leaves product / 10 to carry. */
  lemma OnesDigitExtendsReading(row: seq<string>, row': seq<string>, base: int, i: nat, product: nat)
    requires i <= base < |row| && |row'| == |row|
    requires row'[base - i] == NatText(product % 10)
    requires forall c :: base - i < c <= base ==> row'[c] == row[c]
    ensures RowReading(row', base, i + 1) + (product / 10) * Pow10(i + 1)
         == RowReading(row, base, i) + product * Pow10(i)
  {
    var p := Pow10(i);
    RowReadingFrame(row, row', base, i);
    DigitTextValue(product % 10);
    assert RowReading(row', base, i + 1) == RowReading(row, base, i) + (product % 10) * p;
    assert product * p == (product % 10) * p + (product / 10) * (10 * p) by {
      assert product == (product / 10) * 10 + product % 10;
    }
  }

  lemma WriteOnesKeepsRowInvariant(s: Stepper)
    requires Valid(s) && !Finished(s) && s.phase == WriteOnes && RowInvariant(s)
    ensures RowInvariant(RunStep(s))
  {
    var r := RunStep(s);
    var i := s.topIndex;
    var base := s.onesColumn - s.answerRow;
    var row := s.board.answers[s.answerRow];
    var row' := r.board.answers[s.answerRow];
    WriteOnesWritesColumn(s);
    PhaseOrder(s);
    assert forall c :: base - i < c <= base ==> row'[c] == row[c];
    OnesDigitExtendsReading(row, row', base, i, s.product);
  }

  /** Every step keeps the row invariant. */
  lemma RunStepKeepsRowInvariant(s: Stepper)
    requires Valid(s) && RowInvariant(s)
    ensures RowInvariant(RunStep(s))
  {
    if !Finished(s) {
      match s.phase
      case Highlight => AnswersUntouchedKeepRowInvariant(s);
      case Multiply => MultiplyKeepsRowInvariant(s);
      case WriteOnes => WriteOnesKeepsRowInvariant(s);
      case WriteCarry => AnswersUntouchedKeepRowInvariant(s);
      case Advance => AdvanceKeepsRowInvariant(s);
    } else {
      assert Finished(RunStep(s));
    }
  }

  /** Highlight and WriteCarry change neither the answer rows nor the
      cursors, carry or product the invariant reads. */
  lemma AnswersUntouchedKeepRowInvariant(s: Stepper)
    requires Valid(s) && RowInvariant(s) && !Finished(s)
    requires s.phase == Highlight || s.phase == WriteCarry
    ensures RowInvariant(RunStep(s))
  {
    var r := RunStep(s);
    assert r.board.answers == s.board.answers;
    assert r.topIndex == s.topIndex && r.bottomIndex == s.bottomIndex && r.answerRow == s.answerRow;
    assert r.carry == s.carry && r.product == s.product;
  }

  /** Advance either moves to the next top digit of the same row, or starts
      the next row with nothing written and no carry. */
  lemma AdvanceKeepsRowInvariant(s: Stepper)
    requires Valid(s) && RowInvariant(s) && !Finished(s) && s.phase == Advance
    ensures RowInvariant(RunStep(s))
  {
    var r := RunStep(s);
    if s.topIndex + 1 >= s.topLength {
      assert r.topIndex == 0 && r.carry == 0;
      assert r.topNumber % Pow10(0) == 0;
    } else {
      assert r.board == s.board && r.answerRow == s.answerRow && r.topIndex == s.topIndex + 1;
    }
  }

  /** When a partial row is complete, its digits read
      (top mod 10^topLength) * bottomDigit minus the last carry shifted past
      the row: Advance then drops that carry, so it never reaches the row. */
  lemma PartialRowDropsFinalCarry(s: Stepper)
    requires Valid(s) && RowInvariant(s) && !Finished(s)
    requires s.phase == Advance && s.topIndex == s.topLength - 1
    requires s.topNumber < Pow10(s.topLength)
    ensures var row := s.board.answers[s.answerRow];
      var bd := GetDigit(s.bottomNumber, s.bottomIndex);
      && RowReading(row, s.onesColumn - s.answerRow, s.topLength)
         == s.topNumber * bd - s.carry * Pow10(s.topLength)
      && RunStep(s).carry == 0
      && RunStep(s).board.answers == s.board.answers
  {
    AdvanceMovesCursors(s);
    DivModUnique(s.topNumber, Pow10(s.topLength), 0, s.topNumber);
    assert s.topIndex + 1 == s.topLength;
  }

  // ---------------------------------------------------------------------
  // The end: the "+" marker and the final row

  /** After the last bottom digit, the first press marks the last partial
      row with "+" and changes nothing else but the flag and message. */
  lemma PlusShownOnce(s: Stepper)
    requires Valid(s) && Finished(s) && !s.showedPlus
    ensures var r := RunStep(s);
      var last := |s.board.answers| - 1;
      && r.showedPlus && r.message == AddPartials
      && r.board == s.board.(answers := s.board.answers[last := MarkBeforeFirstFilled(s.board.answers[last], PlusMark)])
      && r == s.(board := r.board, showedPlus := true, message := AddPartials)
  {
  }

  /** Once the marker is shown, each press rewrites only the final row, with
      a value that depends on the operands alone: pressing again changes
      nothing. */
  lemma FinalStepIdempotent(s: Stepper)
    requires Valid(s) && Finished(s) && s.showedPlus
    ensures var r := RunStep(s);
      && r.board == s.board.(final := FinalRow(Wrap32(s.topNumber * s.bottomNumber), |s.board.final|))
      && r.message == Complete
      && RunStep(r) == r
  {
  }

  /** The final-row loop in closed form: the cell k places from the right
      holds digit k of the result while result / 10^k > 0, and is blank
      after that. */
  lemma {:induction false} FinalRowDigits(result: nat, width: nat, k: nat)
    requires k < width
    ensures FinalRow(result, width)[width - 1 - k]
         == (if result / Pow10(k) > 0 then NatText(GetDigit(result, k)) else Blank)
  {
    var r := FinalRow(result, width);
    if k == 0 {
      assert r[width - 1] == (if result > 0 then NatText(result % 10) else Blank);
    } else {
      CsDivRem(result, 10);
      var rest := FinalRow(result / 10, width - 1);
      assert r[width - 1 - k] == rest[(width - 1) - 1 - (k - 1)];
      FinalRowDigits(result / 10, width - 1, k - 1);
      DivPow10Shift(result, k - 1);
    }
  }

  /** A result of zero or below (a product that wrapped negative) keeps
      `result > 0` false through every division: the whole row is blank. */
  lemma {:induction false} FinalRowNonPositive(result: int, width: nat)
    requires result <= 0
    ensures forall i :: 0 <= i < width ==> FinalRow(result, width)[i] == Blank
    decreases width
  {
    if width > 0 {
      FinalRowNonPositive(CsDiv(result, 10), width - 1);
    }
  }

  /** The cell k places from the right reads as digit k of the result. */
  lemma FinalCellFilled(result: nat, width: nat, k: nat)
    requires k < width && result / Pow10(k) > 0
    ensures FinalRow(result, width)[width - 1 - k] == NatText(GetDigit(result, k)) != Blank
  {
    FinalRowDigits(result, width, k);
    assert |NatText(GetDigit(result, k))| >= 1;
  }

  lemma FinalCellBlank(result: nat, width: nat, k: nat)
    requires k < width && result / Pow10(k) == 0
    ensures FinalRow(result, width)[width - 1 - k] == Blank && GetDigit(result, k) == 0
  {
    FinalRowDigits(result, width, k);
  }

  lemma FinalCellValue(result: nat, width: nat, k: nat)
    requires k < width
    ensures LeadValue(FinalRow(result, width)[width - 1 - k]) == GetDigit(result, k)
    ensures FinalRow(result, width)[width - 1 - k] == Blank <==> result / Pow10(k) == 0
  {
    var p := Pow10(k);
    var q := result / p;
    assert q >= 0 by {
      assert q * p <= result;
      if q < 0 { MulAtLeast(-q, p); }
    }
    if q > 0 {
      FinalCellFilled(result, width, k);
      DigitTextValue(GetDigit(result, k));
    } else {
      FinalCellBlank(result, width, k);
    }
  }

  /** The final row, blanks read as 0, holds result mod 10^n in its n
      rightmost cells. */
  lemma {:induction false} FinalRowReadsResult(result: nat, width: nat, n: nat)
    requires n <= width
    ensures RowReading(FinalRow(result, width), width - 1, n) == result % Pow10(n)
  {
    if n > 0 {
      var r := FinalRow(result, width);
      FinalRowReadsResult(result, width, n - 1);
      FinalCellValue(result, width, n - 1);
      GetDigitPlaceValue(result, n - 1);
      assert RowReading(r, width - 1, n)
          == RowReading(r, width - 1, n - 1) + LeadValue(r[width - 1 - (n - 1)]) * Pow10(n - 1);
    }
  }

  /** When the product fits the row, the final row reads back exactly the
      product, and a cell is blank exactly when it lies left of the
      product's leading digit. */
  lemma FinalRowRoundTrip(result: nat, width: nat)
    requires result < Pow10(width)
    ensures var r := FinalRow(result, width);
      && RowReading(r, width - 1, width) == result
      && forall k :: 0 <= k < width ==> (r[width - 1 - k] == Blank <==> result / Pow10(k) == 0)
  {
    FinalRowReadsResult(result, width, width);
    DivModUnique(result, Pow10(width), 0, result);
    forall k | 0 <= k < width
      ensures FinalRow(result, width)[width - 1 - k] == Blank <==> result / Pow10(k) == 0
    {
      FinalCellValue(result, width, k);
    }
  }

  // ---------------------------------------------------------------------
  // Running to completion

  function PhaseRank(p: Phase): nat {
    match p
    case Highlight => 0
    case Multiply => 1
    case WriteOnes => 2
    case WriteCarry => 3
    case Advance => 4
  }

  /** Presses left before the final row is written (an upper bound: a round
      without a carry skips WriteCarry). */
  function Remaining(s: Stepper): nat
    requires Valid(s)
  {
    if Finished(s) then (if s.showedPlus then 0 else 1)
    else
      var rounds := (s.bottomLength - s.bottomIndex) * s.topLength - s.topIndex;
      assert rounds >= 1 by {
        assert (s.bottomLength - s.bottomIndex) * s.topLength >= s.topLength by {
          MulAtLeast(s.bottomLength - s.bottomIndex, s.topLength);
        }
      }
      2 + 5 * rounds - PhaseRank(s.phase)
  }

  /** Every press before the final one brings completion closer. */
  lemma RunStepProgress(s: Stepper)
    requires Valid(s) && !(Finished(s) && s.showedPlus)
    ensures Remaining(RunStep(s)) < Remaining(s)
  {
    var r := RunStep(s);
    if !Finished(s) && s.phase == Advance && s.topIndex + 1 >= s.topLength {
      var rounds := (s.bottomLength - s.bottomIndex) * s.topLength - s.topIndex;
      assert (s.bottomLength - s.bottomIndex) * s.topLength
          == (s.bottomLength - (s.bottomIndex + 1)) * s.topLength + s.topLength;
      if !Finished(r) {
        assert (r.bottomLength - r.bottomIndex) * r.topLength - r.topIndex == rounds - 1;
      }
    }
  }

  /** Pressing Step until the final row has been written. */
  function RunToCompletion(s: Stepper): (r: Stepper)
    requires Valid(s)
    ensures Valid(r)
    ensures r.board.final == FinalRow(Wrap32(s.topNumber * s.bottomNumber), |s.board.final|)
    ensures r.topNumber == s.topNumber && r.bottomNumber == s.bottomNumber
    ensures Finished(r) && r.showedPlus && RunStep(r) == r
    decreases Remaining(s)
  {
    if Finished(s) && s.showedPlus then
      FinalStepIdempotent(s);
      RunStep(s)
    else
      RunStepProgress(s);
      RunToCompletion(RunStep(s))
  }

  /** The first press on a freshly started board whose operand rows hold
      numbers loads them and takes the first step. */
  lemma FirstPressLoads(b: Board)
    requires Loadable(b) && |b.answers| >= 1
    requires BuildNumber(b.top).value >= 0 && BuildNumber(b.bottom).value >= 0
    ensures var s := StepThrough(Start(b));
      && Valid(s)
      && s.topNumber == BuildNumber(b.top).value
      && s.bottomNumber == BuildNumber(b.bottom).value
      && s.topStart == BuildNumber(b.top).start && s.topLength == BuildNumber(b.top).length
      && s.bottomStart == BuildNumber(b.bottom).start && s.bottomLength == BuildNumber(b.bottom).length
      && |s.board.final| == |b.final|
  {
    var s0 := Start(b);
    assert s0.board.top == b.top && s0.board.bottom == b.bottom && s0.board.final == b.final;
    assert s0.board.answers == ClearAnswerRows(ClearCarryRow(b)).answers;
    assert LoadNumbers(s0).0;
    LoadResetsState(s0);
  }

  /** End to end: a board whose operand rows hold digit runs A and B and
      whose answer grid fits loads on the first press, and pressing on
      writes A * B (mod 10^width) into the final row when A * B fits a
      32-bit int; exactly A * B when it also fits the row. */
  lemma MultiplicationEndToEnd(b: Board)
    requires Loadable(b) && |b.answers| >= 1
    requires SpanAllDigits(b.top) && SpanAllDigits(b.bottom)
    requires BuildNumber(b.top).start != -1 && BuildNumber(b.bottom).start != -1
    ensures var s := StepThrough(Start(b));
      var a := BuildNumber(b.top).value;
      var c := BuildNumber(b.bottom).value;
      var w := |b.final|;
      && Valid(s)
      && 0 <= a < Pow10(BuildNumber(b.top).length)
      && 0 <= c < Pow10(BuildNumber(b.bottom).length)
      && ReadsProduct(RunToCompletion(s).board.final, a * c)
  {
    var s := StepThrough(Start(b));
    var a := BuildNumber(b.top).value;
    var c := BuildNumber(b.bottom).value;
    OperandBound(b.top);
    OperandBound(b.bottom);
    FirstPressLoads(b);
    assert Valid(s) && s.topNumber == a && s.bottomNumber == c && |s.board.final| == |b.final|;
    LoadedReadsProduct(s, a, c, |b.final|);
  }

  /** The value bound of BuildNumberReadsDigits on its own. */
  lemma OperandBound(row: seq<string>)
    requires SpanReadable(row) && SpanAllDigits(row)
    requires BuildNumber(row).start != -1
    ensures 0 <= BuildNumber(row).value < Pow10(BuildNumber(row).length)
  {
    BuildNumberReadsDigits(row);
  }

  /** A final row reads the product n when n fits a 32-bit int: n mod
      10^width, and n itself when it also fits the row. */
  predicate ReadsProduct(f: seq<string>, n: int) {
    var w := |f|;
    && (n <= Int32Max ==> RowReading(f, w - 1, w) == n % Pow10(w))
    && (n <= Int32Max && n < Pow10(w) ==> RowReading(f, w - 1, w) == n)
  }

  /** CompletionReadsProduct for a stepper loaded with operands a and c. */
  lemma LoadedReadsProduct(s: Stepper, a: int, c: int, w: nat)
    requires Valid(s) && s.topNumber == a && s.bottomNumber == c && |s.board.final| == w
    ensures ReadsProduct(RunToCompletion(s).board.final, a * c)
  {
    CompletionReadsProduct(s);
  }

  /** Pressing on from any valid state leaves in the final row what C#'s
      32-bit `topNumber * bottomNumber` gives: blanks when it wrapped to
      zero or below, that value modulo 10^width otherwise. While the
      product fits a 32-bit int this is the product itself. */
  lemma CompletionReadsProduct(s: Stepper)
    requires Valid(s)
    ensures var w := |s.board.final|;
      var f := RunToCompletion(s).board.final;
      var n := s.topNumber * s.bottomNumber;
      var p := Wrap32(n);
      && |f| == w
      && (p <= 0 ==> forall i :: 0 <= i < w ==> f[i] == Blank)
      && (p >= 0 ==> RowReading(f, w - 1, w) == p % Pow10(w))
      && (n <= Int32Max ==> RowReading(f, w - 1, w) == n % Pow10(w))
      && (n <= Int32Max && n < Pow10(w) ==> RowReading(f, w - 1, w) == n)
  {
    var n := s.topNumber * s.bottomNumber;
    assert n >= 0;
    WrappedProductReads(n, |s.board.final|);
  }

  /** The final row of C#'s 32-bit product of two operands whose exact
      product is n. */
  lemma WrappedProductReads(n: nat, w: nat)
    ensures var p := Wrap32(n);
      var f := FinalRow(p, w);
      && |f| == w
      && (p <= 0 ==> forall i :: 0 <= i < w ==> f[i] == Blank)
      && (p >= 0 ==> RowReading(f, w - 1, w) == p % Pow10(w))
      && (n <= Int32Max ==> RowReading(f, w - 1, w) == n % Pow10(w))
      && (n <= Int32Max && n < Pow10(w) ==> RowReading(f, w - 1, w) == n)
  {
    var p := Wrap32(n);
    if n <= Int32Max {
      assert p == n;
      ProductReads(n, w);
    } else if p <= 0 {
      FinalRowNonPositive(p, w);
      if p == 0 {
        ProductReads(0, w);
      }
    } else {
      ProductReads(p, w);
    }
  }

  /** Two nine-digit-wide operands whose product passes 2^31 - 1:
      46341 * 46341 = 2147488281 wraps to -2147479015, and the final row
      comes out blank. */
  lemma ProductOverflowBlanksRow(w: nat)
    ensures Wrap32(46341 * 46341) == -2147479015
    ensures forall i :: 0 <= i < w ==> FinalRow(Wrap32(46341 * 46341), w)[i] == Blank
  {
    FinalRowNonPositive(Wrap32(46341 * 46341), w);
  }

  /** A product that wraps to a positive value is written as that value:
      999999999 * 9 shows 410065399 instead of 8999999991. */
  lemma ProductOverflowWrapsDigits()
    ensures Wrap32(999999999 * 9) == 410065399
    ensures RowReading(FinalRow(Wrap32(999999999 * 9), 9), 8, 9) == 410065399
  {
    ProductReads(410065399, 9);
  }

  lemma ProductReads(n: nat, w: nat)
    ensures |FinalRow(n, w)| == w
    ensures RowReading(FinalRow(n, w), w - 1, w) == n % Pow10(w)
    ensures n < Pow10(w) ==> RowReading(FinalRow(n, w), w - 1, w) == n
  {
    FinalRowReadsResult(n, w, w);
    if n < Pow10(w) {
      DivModUnique(n, Pow10(w), 0, n);
    }
  }
}

=== FILE: scan.dfy ===
/** Left-to-right searches over a row of cell texts. */
module Scan {

  /** The least index j >= from with p(row[j]), or -1 when there is none. */
  function FirstFrom(row: seq<string>, from: nat, p: string -> bool): (j: int)
    ensures j == -1 || (from <= j < |row| && p(row[j]))
    ensures j == -1 ==> forall k :: from <= k < |row| ==> !p(row[k])
    ensures j != -1 ==> forall k :: from <= k < j ==> !p(row[k])
    decreases |row| - from
  {
    if from >= |row| then -1
    else if p(row[from]) then from
    else FirstFrom(row, from + 1, p)
  }

  /** The greatest index j < upto with p(row[j]), or -1 when there is none. */
  function LastBefore(row: seq<string>, upto: nat, p: string -> bool): (j: int)
    requires upto <= |row|
    ensures j == -1 || (0 <= j < upto && p(row[j]))
    ensures j == -1 ==> forall k :: 0 <= k < upto ==> !p(row[k])
    ensures j != -1 ==> forall k :: j < k < upto ==> !p(row[k])
  {
    if upto == 0 then -1
    else if p(row[upto - 1]) then upto - 1
    else LastBefore(row, upto - 1, p)
  }
}
